=== FILE: README.md ===
# Notification dashboard — a Dafny model of its consistency core

The system is a notification dashboard. A user logs in, sees their
notifications newest first, marks them read, deletes them, and receives
changes live over a socket. There are two backends for the same API:

- an Express/TypeScript server, backed by MongoDB and a Redis read-through
  cache, that pushes socket.io events;
- a Go server, backed by MongoDB, that pushes JSON over gorilla websockets.
  It also has an admin fan-out that sends one notification to every user.

The React/Redux client holds a list of notifications. It merges one fetched
snapshot with the stream of pushed change events.

This project models that core as pure Dafny functions over immutable data:

- **Store.** The notifications collection is a sequence of records with
  unique ids. `Store.Load` is the owner query sorted by timestamp, newest
  first.
- **Cache.** Redis is a map from key to snapshot plus expiry time, read
  against a natural-number clock. Entries live for 3600 seconds.
- **TypeScript controller.** Each handler (`Controller`) is one state
  transition over (store, cache, clock, emitted events). The environment
  decides which awaited call throws. The outcome records the calls made, in
  order.
  - `Coherence` proves that every live cache entry equals the store query.
    That holds for any history whose cache deletes succeed, with each
    handler one atomic step, so every successful read serves the store's
    current state.
- **Client reconciler.** The Redux slice (`NotificationsSlice`), the auth
  slice (`AuthSlice`) and the Dashboard component (`Dashboard`) are pure
  reducers.
  - `Reconciler` proves that a client that fetched its list and then applied
    every emitted event stays exactly in step with the server's records for
    its user. The event filter it needs is one the code does not have (see
    Findings).
- **Go server.** `GoNotifications`, `GoAuth` and `Hub` model the Go handlers
  and the websocket registry, a set of connections.
  - Mongo's type-strict matching is explicit. A record's owner is a
    `UserRef`: either an `ObjectId` or plain `Text`.
  - The Go handlers that filter on the raw session string are modelled as
    written, next to corrected versions.
- **Validation and accounts.** The route validators and the schema are in
  `Validators`, `Routes` and `Notifications`. The TypeScript account
  handlers are in `AuthController` and `AuthRoutes`.

Password hashing and its comparison are function parameters. Time is a
natural number. Driver failures are boolean parameters. Connection write
failures are a set of connections.

Three behaviours of the code are worth knowing before reading the model:

- **A failed cache delete skips the emit.** The TypeScript handlers keep the
  store write, the cache delete and the `io.emit` in one `try` block. If
  the delete throws after a successful write, the request answers 500 and
  nothing is emitted, although the record was written
  (`Controller.Add`, `Coherence.FailedInvalidationServesStaleData`,
  `Reconciler.FailedInvalidationDesyncsClient`).
- **Creates are not idempotent.** The client's `addNewNotification` always
  prepends. A create event whose id is already listed adds a second copy
  instead of replacing the first, so applying it twice differs from
  applying it once (`NotificationsSlice.AddDoesNotDeduplicate`,
  `Reconciler.DuplicateCreateBreaksSync`).
- **Events are not filtered by recipient.** The server emits every event to
  every socket and the client applies every create it receives, whoever
  owns it (first row of Findings).

## Model

| member | source | states |
|---|---|---|
| Common.FirstWith | backend/auth.go:26 | a `findOne` by one field returns the first element in collection order whose field has the value, or reports that none has it |
| Common.ParseObjectId | backend/notifications.go:89-90 | Go's hex parse with the error dropped: a 24-hex-digit id parses to itself, anything else to the all-zero id, and the result is always a well-formed id |
| Common.DecodedObjectId | backend/auth.go:15 | a decoded `_id` field is always a well-formed id: the text itself when it is 24 hex digits, the zero id when absent, empty or not hex |
| Common.InsertedId | backend/auth.go:36-42 | `omitempty` drops the zero id, so the driver's generated id is stored in its place; any other id is stored as given |
| Common.NatDigits | backend/routes/notificationRoutes.ts:14-16 | the decimal text of a number that the validators read: digits only, no leading zero, and it spells exactly that number (`Common.DigitsValue`) |
| Common.ValidatorText | backend/routes/notificationRoutes.ts:14-16 | the text a validator reads is empty exactly for an absent field, `null` and the empty string; a string is read as itself |
| Notifications.Construct | backend/models/Notification.ts:12-19 | a created record passes the schema, belongs to the session user, takes read = false, timestamp = now and a fresh id when the body omits them, stores a given `read`, `timestamp` and `_id` as they cast, and carries the body's title, message and category; an empty title or message, or a `read`, `timestamp` or `_id` that fails its cast, is refused |
| Notifications.ConstructIgnoresBodyOwner | backend/controllers/notificationController.ts:29-32 | the `userId` a client puts in the body has no effect: the session user always wins |
| Notifications.SchemaValid | backend/models/Notification.ts:13-18 | what the schema demands of a stored record: a non-empty title and message, a category from the enum and an ObjectId owner |
| Notifications.CastString | backend/models/Notification.ts:13-15 | the String cast never fails; it leaves the path unset exactly for an absent field or `null`, and otherwise yields the same text the validators read |
| Notifications.CastBoolean | backend/models/Notification.ts:16 | the Boolean cast leaves the path unset exactly for an absent field or `null` and keeps a boolean; it yields true only from the texts "true", "1" and "yes", false only from "false", "0" and "no" |
| Notifications.CastTimestamp | backend/models/Notification.ts:17 | the timestamp is unset exactly when absent, and a non-negative number is kept as given |
| Notifications.CastId | backend/controllers/notificationController.ts:29-32 | an `_id` in the body is unset exactly when absent; an accepted one is an ObjectId text, kept as given |
| Store.OwnedBy | backend/controllers/notificationController.ts:17 | the owner query returns exactly the records whose owner field equals the queried value, keeping unique ids unique |
| Store.SortNewestFirst | backend/controllers/notificationController.ts:17 | the timestamp sort is a permutation (same multiset) whose timestamps never increase |
| Store.Load | backend/controllers/notificationController.ts:17 | `find({userId}).sort({timestamp: -1})`: a newest-first permutation of exactly the owner's records |
| Store.LaterCreateReadFirst | backend/controllers/notificationController.ts:17 | of two records of one owner, the later-created one is read back first |
| Store.FindOwned | backend/controllers/notificationController.ts:47-48 | the `{_id, userId}` filter finds the first record matching both id and owner, or reports that none does |
| Cache.KeyInjective | backend/controllers/notificationController.ts:11 | two users never share a `notifications:` cache key |
| Cache.Get | backend/controllers/notificationController.ts:11-15 | a key is served only while its entry is live, and then with exactly the stored snapshot |
| Cache.SetEx | backend/controllers/notificationController.ts:18 | SETEX writes one key and no other; the value is readable before the TTL runs out and gone from then on |
| Cache.Del | backend/controllers/notificationController.ts:35 | DEL removes that key only, and is a no-op on an absent key |
| Cache.DelIdempotent | backend/controllers/notificationController.ts:35 | deleting a key twice is the same as deleting it once |
| Cache.SnapshotExpires | backend/controllers/notificationController.ts:18 | a snapshot cached for 3600 seconds is served up to one tick before expiry and never from expiry on |
| Controller.Get | backend/controllers/notificationController.ts:8-24 | a live hit returns the snapshot and touches nothing else; a miss returns the user's newest-first records and caches them for 3600 seconds; 500 exactly when the cache read throws, or on a miss the store read or the cache write throws, and then nothing changes; the store and other keys never change |
| Controller.Add | backend/controllers/notificationController.ts:26-42 | 201 exactly when the record is valid, its id is new and no call throws; then the calls are store write, delete of the writer's key, one `NewNotification` emit, in that order, and other users' keys are kept; any throw gives 500 with no emit; when only the cache delete throws, the record stays written while the cache keeps its stale entry |
| Controller.Mark | backend/controllers/notificationController.ts:44-64 | only a record matching both id and session user is updated, in its `read` field only; no match gives 404 with no cache delete and no emit; success invalidates, then emits the updated record; when only the cache delete throws, the update stays written, the answer is 500 and nothing is emitted |
| Controller.Delete | backend/controllers/notificationController.ts:66-82 | only a record matching both id and user is removed; no match gives 404 with nothing else done; success removes exactly that record, invalidates, then emits the id; when only the cache delete throws, the record stays removed, the answer is 500 and nothing is emitted |
| Coherence.ReadsServeStoreState | backend/controllers/notificationController.ts:11-20 | on a coherent server every successful read, hit or miss, returns exactly the store's current records for that user, newest first |
| Coherence.ExpiredEntryIsReloaded | backend/controllers/notificationController.ts:11-18 | at or after expiry a read reloads from the store instead of serving the old snapshot |
| Coherence.GetKeepsCoherent | backend/controllers/notificationController.ts:17-18 | a read, even a failing one, never makes a live cache entry disagree with the store |
| Coherence.TickKeepsCoherent | backend/controllers/notificationController.ts:18 | the passage of time only expires entries, so coherence survives it |
| Coherence.InvalidationRestoresCoherence | backend/controllers/notificationController.ts:35 | deleting the writer's key is enough: other users' queries are unaffected by the write, so the whole cache stays coherent |
| Coherence.AddKeepsCoherent | backend/controllers/notificationController.ts:33-35 | a create whose cache delete does not throw keeps every live entry equal to the store |
| Coherence.MarkKeepsCoherent | backend/controllers/notificationController.ts:47-57 | the same for a mark |
| Coherence.DeleteKeepsCoherent | backend/controllers/notificationController.ts:69-75 | the same for a delete |
| Coherence.RunKeepsCoherent | backend/controllers/notificationController.ts:8-82 | any sequence of requests and clock steps whose cache deletes all succeed keeps the cache coherent |
| Coherence.ReadAfterAnyHistory | backend/controllers/notificationController.ts:8-82 | from an empty cache, after any such history, a successful read returns the store's current records for the user |
| Coherence.FailedInvalidationServesStaleData | backend/controllers/notificationController.ts:33-40 | a cache delete that throws after the store write answers 500 and emits nothing, while the stored record is missing from the next read |
| Routes.NotEmptyMatchesSchema | backend/routes/notificationRoutes.ts:14-15 | the route's not-empty check accepts exactly the values the schema stores as non-empty text |
| Routes.CategoryCheckMatchesSchema | backend/routes/notificationRoutes.ts:16 | the route's category check accepts exactly the schema's enum |
| Routes.PostValidIffSchemaAccepts | backend/routes/notificationRoutes.ts:13-18 | every body the schema stores passes the route checks; a body that passes them is stored exactly when its unchecked `_id`, `read` and `timestamp` cast, so `read: "maybe"` passes the route and is then refused by the schema; when those fields cast, the route and the schema agree in both directions |
| Routes.MongoIdMatchesCast | backend/routes/notificationRoutes.ts:21 | the path-id check accepts exactly the texts Mongoose casts to an ObjectId, and the cast keeps the text |
| Routes.PatchReadCasts | backend/routes/notificationRoutes.ts:22 | every `read` the boolean check accepts casts to a boolean, true exactly for "true" and "1" |
| Routes.Handle | backend/routes/notificationRoutes.ts:9-29 | no session gives 401 and a failed check gives 400, both before any controller call; GET has no check; an accepted POST creates with the body, an accepted PATCH marks with the cast `read`, an accepted DELETE deletes the named record |
| Routes.ValidCreateIsStored | backend/routes/notificationRoutes.ts:13-18 | a body that passes the route checks, with a fresh id, is stored with 201 |
| Routes.PostValid | backend/routes/notificationRoutes.ts:13-17 | a create body needs a non-empty title and message and a category from the enum |
| Routes.PatchValid | backend/routes/notificationRoutes.ts:20-23 | an update needs a Mongo id in the path and a strict boolean `read` |
| Routes.DeleteValid | backend/routes/notificationRoutes.ts:26-28 | a delete needs a Mongo id in the path |
| Routes.Admissible | backend/routes/notificationRoutes.ts:11-29 | each route's checks, GET having none |
| Validators.NotEmpty | backend/routes/notificationRoutes.ts:14-15 | `notEmpty` fails exactly on an absent field, `null` and the empty string; every number and boolean passes |
| Validators.IsIn | backend/routes/notificationRoutes.ts:16 | `isIn` passes a string exactly when it is listed, and an absent field or `null` only when the empty string is listed |
| Validators.IsBoolean | backend/routes/notificationRoutes.ts:22 | strict `isBoolean` passes a string exactly when it is "true", "false", "1" or "0", always passes a boolean and never an absent field or `null` |
| Validators.VisibleLength | backend/routes/authRoutes.ts:10 | the length `isLength` measures counts code points but not the variation selectors U+FE0E and U+FE0F; without them it is the plain length |
| Validators.MinLength | backend/routes/authRoutes.ts:10 | `isLength({min})` counts code points, not U+FE0E or U+FE0F: a text without variation selectors passes exactly when it has at least `min` characters; an absent field passes only for `min` 0 |
| Validators.IsMongoId | backend/routes/notificationRoutes.ts:21 | a path id passes exactly when it is 24 hexadecimal digits |
| Actions.TypeSuffixes | frontend/src/store/authSlice.ts:60-68 | a thunk action's type ends in "/pending" exactly for pending actions and in "/rejected" exactly for rejected ones |
| NotificationsSlice.AddNew | frontend/src/store/notificationsSlice.ts:69-71 | the payload goes to index 0, the old list follows unchanged, and the length grows by one |
| NotificationsSlice.FirstIndexOf | frontend/src/store/notificationsSlice.ts:76-78 | `findIndex` finds the first item with the id, or reports that none has it |
| NotificationsSlice.UpdateExisting | frontend/src/store/notificationsSlice.ts:72-82 | only the first item with the payload's id is replaced; length and every other position are unchanged; an absent id changes nothing |
| NotificationsSlice.Remove | frontend/src/store/notificationsSlice.ts:83-85 | the result holds exactly the items whose id differs |
| NotificationsSlice.RemoveDistributes | frontend/src/store/notificationsSlice.ts:84 | removal works item by item over any split of the list, so the original order is kept |
| NotificationsSlice.RemoveAbsentNoop | frontend/src/store/notificationsSlice.ts:84 | removing an absent id returns the list unchanged |
| NotificationsSlice.RemoveIdempotent | frontend/src/store/notificationsSlice.ts:84 | removing an id twice equals removing it once |
| NotificationsSlice.RemoveKeepsIdsUnique | frontend/src/store/notificationsSlice.ts:84 | removal keeps a list with unique ids unique |
| NotificationsSlice.UpdateAbsentNoop | frontend/src/store/notificationsSlice.ts:79-81 | an update whose id is absent leaves the list unchanged |
| NotificationsSlice.UpdateIdempotent | frontend/src/store/notificationsSlice.ts:76-81 | applying the same update twice equals applying it once |
| NotificationsSlice.AddDoesNotDeduplicate | frontend/src/store/notificationsSlice.ts:70 | adding a listed notification again gives it one more copy, so at least two |
| NotificationsSlice.AddUpdateRemoveClears | frontend/src/store/notificationsSlice.ts:69-85 | add, update, then remove of one id leaves no item with that id and keeps every other item |
| NotificationsSlice.MessageOrNull | frontend/src/store/notificationsSlice.ts:98 | `message \|\| null`: an absent or empty message becomes null |
| NotificationsSlice.Reduce | frontend/src/store/notificationsSlice.ts:89-115 | fetch pending sets loading; fulfilled sets succeeded and replaces the items; rejected sets failed and the message or null, keeping the items; no other action touches status or error |
| NotificationsSlice.FulfilledCasesMatchReducers | frontend/src/store/notificationsSlice.ts:100-115 | the add, mark and delete fulfilled cases behave exactly as the add, update and remove reducers |
| NotificationsSlice.StaleErrorSurvivesRefetch | frontend/src/store/notificationsSlice.ts:89-99 | neither pending nor fulfilled clears a fetch error: after a failure and a successful refetch, the old message is still there |
| AuthSlice.MessageOrDefault | frontend/src/store/authSlice.ts:71-72 | a rejected action's error is its message when non-empty, otherwise "An error occurred" |
| AuthSlice.Reduce | frontend/src/store/authSlice.ts:44-74 | register or login fulfilled authenticates with the payload's username; logout resets to unauthenticated and idle, keeping the error; any "/pending" type sets loading and clears the error; any "/rejected" type sets failed and the message |
| AuthSlice.ForeignThunksDriveAuthStatus | frontend/src/store/authSlice.ts:60-74 | the notifications fetch's pending and rejected actions also change the auth slice's status and error |
| AuthSlice.LoginThenLogout | frontend/src/store/authSlice.ts:50-59 | login then logout returns to the initial state, except that the error is kept |
| Dashboard.Visible | frontend/src/components/Dashboard.tsx:74-76 | "all" shows the whole list; a category shows exactly the items of that category |
| Dashboard.VisibleDistributes | frontend/src/components/Dashboard.tsx:74-76 | the filter works item by item over any split of the list, so it keeps the original order |
| Dashboard.CategoriesPartition | frontend/src/components/Dashboard.tsx:74-76 | each item with a valid category appears under its own category filter and under no other |
| Dashboard.UnreadCount | frontend/src/components/Dashboard.tsx:78 | the badge is at most the list length, 0 exactly when all are read, and the full length exactly when none is |
| Dashboard.UnreadCountAdditive | frontend/src/components/Dashboard.tsx:78 | the unread count of a concatenation is the sum of the parts' counts |
| Dashboard.UnreadAfterAdd | frontend/src/components/Dashboard.tsx:78 | a pushed unread notification raises the badge by one; a read one leaves it |
| Dashboard.MarkReadRequest | frontend/src/components/Dashboard.tsx:66-68 | the mark button asks for the opposite of the item's current `read`, for the same id |
| Dashboard.MarkReadToggles | frontend/src/components/Dashboard.tsx:66-68 | pressing the button twice restores the original value |
| Dashboard.ToAction | frontend/src/components/Dashboard.tsx:40-54 | socket events map one-to-one to reducer actions: create to add, update to update, delete to remove, carrying the same payload |
| Dashboard.ToActionFaithful | frontend/src/components/Dashboard.tsx:40-54 | the mapping is injective, and a dispatched event changes only the items, by the matching reducer |
| Reconciler.Apply | frontend/src/components/Dashboard.tsx:40-54 | applying a pushed event gives the same items as dispatching it through the slice reducer, whatever the rest of the state |
| Reconciler.RecipientCheckKeepsOthersOut | frontend/src/components/Dashboard.tsx:40-45 | with a recipient check, a create never brings another user's record into the list (the listeners as written do take it in): another user's create changes nothing and the viewer's own is prepended; updates and deletes are applied as the slice applies them |
| Reconciler.FetchEstablishesSync | frontend/src/store/notificationsSlice.ts:92-95 | a fetched list holds exactly the user's records in the store |
| Reconciler.ReadEstablishesSync | backend/controllers/notificationController.ts:8-20 | on a coherent server, the list a successful GET returns is in step with the store |
| Reconciler.AddKeepsSync | backend/controllers/notificationController.ts:33-37 | a client in step stays in step after applying the event emitted by a successful create by any user |
| Reconciler.MarkKeepsSync | backend/controllers/notificationController.ts:47-59 | the same for a successful mark by any user |
| Reconciler.DeleteKeepsSync | backend/controllers/notificationController.ts:69-77 | the same for a successful delete by any user |
| Reconciler.RunKeepsSync | frontend/src/components/Dashboard.tsx:36-54 | over any history whose cache deletes succeed, the events only grow, and a client in step at the start is in step after applying the new ones |
| Reconciler.ClientConverges | frontend/src/components/Dashboard.tsx:36-54 | a client that fetched at the start and applied every emitted event holds exactly its user's records in the store after any such history |
| Reconciler.AsWrittenShowsOtherUsersCreates | frontend/src/components/Dashboard.tsx:40-45 | with the reducer as written, another user's create lands in this user's list; with the filter it does not |
| Reconciler.DuplicateCreateBreaksSync | frontend/src/store/notificationsSlice.ts:69-71 | a create event delivered twice leaves the client out of step with the store |
| Reconciler.FailedInvalidationDesyncsClient | backend/controllers/notificationController.ts:33-40 | a stored create whose cache delete throws is never emitted, so an in-step client misses it |
| Hub.TypeField | backend/websocket.go:45-64 | the payload types are "notification", "deletion" and "newNotification", one per message kind |
| Hub.Connect | backend/websocket.go:25-27 | a new connection is registered and no other changes |
| Hub.Disconnect | backend/websocket.go:29-36 | a read error removes exactly that connection |
| Hub.DisconnectUndoesConnect | backend/websocket.go:25-36 | connecting then disconnecting a new connection restores the registry |
| Hub.Broadcast | backend/websocket.go:40-55 | every client registered at the start is written to; exactly those whose write fails are dropped |
| Hub.BroadcastOnlyShrinks | backend/websocket.go:40-72 | a broadcast never registers anyone; the clients kept are exactly those reached |
| Hub.BroadcastLoop | backend/websocket.go:44-54 | the `range clients` loop writes to each registered client exactly once, in some order, and ends with the registry `Broadcast` gives |
| GoNotifications.SessionOwner | backend/notifications.go:65 | the session id converted to an ObjectId, as stored in records' owner field |
| GoNotifications.RawOwner | backend/notifications.go:98 | the session id used as a plain string in a filter is never an ObjectId |
| GoNotifications.BodyId | backend/notifications.go:17 | the body's `_id` as decoded: the id itself when it is an ObjectId text, the zero id when absent or empty |
| GoNotifications.Get | backend/notifications.go:26-51 | 401 without a session and 500 on a driver error; otherwise the owner query on the session user's ObjectId: a newest-first permutation (same multiset) of exactly that user's records; nothing changes |
| GoNotifications.Stamp | backend/notifications.go:61-65 | the stored record takes time now, read = false and the session user, whatever the body says, and keeps the body's text fields; its id is the body's `_id` unless that decodes to the zero id, which `omitempty` drops so the driver generates one |
| GoNotifications.Add | backend/notifications.go:53-79 | 200 exactly when there is a session, the insert succeeds and the id is new; then one record is appended and one "notification" broadcast carries it with its id; otherwise nothing changes and nothing is broadcast |
| GoNotifications.AddOverridesBody | backend/notifications.go:63-65 | the body's read, timestamp and owner fields never affect the outcome |
| GoNotifications.AddStoresWhatSchemaRejects | backend/notifications.go:61-72 | the Go create has no validation: an empty title and an unknown category are stored |
| GoNotifications.AddThenGetShowsRecord | backend/notifications.go:34-37 | a record the add stored is returned by its owner's next read |
| GoNotifications.MarkMatching | backend/notifications.go:97-111 | 404 on a driver error or no record matching both id and owner; otherwise that record's `read` is set and broadcast |
| GoNotifications.MarkChangesOnlyRead | backend/notifications.go:99 | a successful mark changes one record of that owner, in its `read` field only |
| GoNotifications.MarkAsWritten | backend/notifications.go:81-112 | the handler filters on the session string as text |
| GoNotifications.Mark | backend/notifications.go:81-112 | the handler with the session converted to an ObjectId |
| GoNotifications.AsWrittenMarkNeverMatches | backend/notifications.go:98 | as written, against records whose owners are ObjectIds, mark always answers 401 or 404 and changes nothing |
| GoNotifications.MarkFindsOwnRecord | backend/notifications.go:98 | corrected, a user can mark the record they just created |
| GoNotifications.DeleteMatching | backend/notifications.go:122-142 | 500 on a driver error, 404 when nothing matches both id and owner; otherwise exactly that record goes, with one "deletion" broadcast of the id |
| GoNotifications.DeleteAsWritten | backend/notifications.go:114-143 | the handler filters on the session string as text |
| GoNotifications.Delete | backend/notifications.go:114-143 | the handler with the session converted to an ObjectId |
| GoNotifications.AsWrittenDeleteNeverMatches | backend/notifications.go:126 | as written, against records whose owners are ObjectIds, delete never removes anything |
| GoNotifications.DeleteRemovesOnlyTarget | backend/notifications.go:126-127 | a successful delete leaves exactly the other records, ids still unique |
| GoNotifications.FindUser | backend/notifications.go:157 | the `_id` lookup finds a user whose id equals the queried value, or reports that none does |
| GoNotifications.Copies | backend/notifications.go:188-195 | one copy per user, in user order, each the base notification with that user as owner |
| GoNotifications.FirstClash | backend/notifications.go:197 | the ordered insert's first failing copy: every copy before it has an id neither stored nor given to an earlier copy, and the copy at it (if any) has one |
| GoNotifications.CleanPrefixUnique | backend/notifications.go:197 | inserting copies in order up to the first clash keeps the collection's ids unique |
| GoNotifications.Base | backend/notifications.go:163-171 | the fan-out notification takes time now and read = false, keeps the body's text, and has the body's decoded `userId` as owner (the zero id when absent) and its decoded `_id` as id; the broadcast carries exactly this |
| GoNotifications.SendToAllMatching | backend/notifications.go:146-208 | 401 exactly when the caller is not found with role "admin"; 400 exactly when the body is missing or one of its ids does not decode; the ordered insert stops at the first copy whose id is already stored or given to an earlier copy, or at a driver error, keeping the copies before it and broadcasting nothing; 200 exactly when no copy clashes and the driver does not fail, and then all copies are stored and one broadcast carries the base; ids stay unique |
| GoNotifications.SendToAllAsWritten | backend/notifications.go:146-208 | the handler looks the admin up by the session string as text |
| GoNotifications.SendToAll | backend/notifications.go:146-208 | the handler with the session converted to an ObjectId |
| GoNotifications.AsWrittenSendToAllAlwaysUnauthorized | backend/notifications.go:155-161 | as written, every call answers 401 and changes nothing |
| GoNotifications.SendToAllReachesEveryUser | backend/notifications.go:170-197 | corrected, an admin's send whose body names no `_id`, with distinct generated ids not yet stored, stores exactly one unread copy per user, each with its generated id, that user as owner and the same text, category and time |
| GoNotifications.FreshCopiesNeverClash | backend/notifications.go:188-197 | copies with distinct generated ids, none stored, are all inserted |
| GoNotifications.SendWithBodyIdFails | backend/notifications.go:188-201 | a body `_id` goes into every copy, so with two users or more the send answers 500, broadcasts nothing and stores at most one copy |
| GoNotifications.FailedSendBroadcastsNothing | backend/notifications.go:197-204 | a send that does not answer 200 broadcasts nothing and leaves the registry alone |
| GoAuth.DecodedPassword | backend/auth.go:17 | the decoded password field is always empty, because its JSON tag is "-" |
| GoAuth.RegisterStoring | backend/auth.go:21-50 | a taken name gives 400 and nothing is inserted; otherwise one user is appended with role "user" and the hash under the decoded body `_id`, or a generated id when that decodes to the zero id (absent, "" or not hex), the session gets that id, and the reply's password is blank; a failed insert gives 500 |
| GoAuth.AccountId | backend/auth.go:36-42 | the stored account's id is the body's `_id` when it is a non-zero ObjectId text and the generated id otherwise |
| GoAuth.RegisterAsWritten | backend/auth.go:21-50 | as written, the stored hash is the hash of the empty password |
| GoAuth.Register | backend/auth.go:32-34 | corrected, the stored hash is the hash of the request's password, with role "user" |
| GoAuth.RegisterIgnoresRequestedRole | backend/auth.go:34 | the role a client asks for has no effect |
| GoAuth.Login | backend/auth.go:52-88 | 400 for a bad body; 401 "Invalid credentials" for an unknown name, a failed lookup or a wrong password; 500 when the session save fails; 200 exactly when the body decodes, the lookup finds the name, the password matches and the save succeeds, and then the session gets the user's id and the reply blanks the password |
| GoAuth.LoginFailuresIndistinguishable | backend/auth.go:64-75 | an unknown name and a wrong password get identical replies |
| GoAuth.AsWrittenRegisterLosesPassword | backend/auth.go:17-34 | as written, a user registered with "secret" cannot log in with it, but can log in with the empty password |
| GoAuth.RegisterThenLogin | backend/auth.go:21-83 | corrected, a fresh user logs in with the password they registered with and gets the new account's session |
| GoAuth.Logout | backend/auth.go:92-100 | the session loses its user; the users are unchanged |
| AuthController.Register | backend/controllers/authController.ts:4-21 | a taken name gives 400 and nothing changes; otherwise exactly one account is added with the password's hash and the session gets its id (201); a throw gives 500 and nothing changes |
| AuthController.Login | backend/controllers/authController.ts:23-37 | 401 exactly when the name is unknown or the password does not match, with the session unchanged; success sets the session to that user's id; a throw gives 500 |
| AuthController.Logout | backend/controllers/authController.ts:39-47 | destroying the session removes the user; a failed destroy gives 500 and keeps it |
| AuthController.DuplicateRegistrationRefused | backend/controllers/authController.ts:7-11 | a second registration under the same name is refused and changes nothing |
| AuthController.RegisterThenLogin | backend/controllers/authController.ts:4-37 | a fresh user logs in with the password they registered with |
| AuthRoutes.RegisterValid | backend/routes/authRoutes.ts:8-11 | registration needs a username that is present, not null and not "" and a present password of at least six counted characters; for a password without variation selectors that is exactly six characters or more |
| AuthRoutes.LoginValid | backend/routes/authRoutes.ts:14-17 | login passes exactly when both username and password are present, not null and not "" |
| AuthRoutes.PasswordLengthBoundary | backend/routes/authRoutes.ts:10 | a password of six counted characters passes registration and one of five does not; five letters followed by U+FE0F count as five and are refused |
| AuthRoutes.LoginChecksAreWeaker | backend/routes/authRoutes.ts:8-18 | every valid registration body passes the login checks, but login accepts a one-character password that registration refuses |

## Left out

- Process bootstrap is not part of this model: connecting to Mongo and Redis, router wiring, CORS and sessions (backend/main.go and backend/server.js). The Go `/ws` route in backend/main.go is wired to an echo handler, so nothing connects the registry to a route.
- backend/middleware.go is not part of this model. It is a session lookup wrapped around the ObjectId parser, which `Common.ParseObjectId` covers.
- The `validateRequest` middleware is not part of this model. A failed route check is assumed to answer 400 without calling the controller.
- backend/models/User.ts is not part of this model. Hashing and `comparePassword` are the parameters `hash` and `matches`.
- Locks and concurrency: the registry mutex and async interleavings. Every handler is one atomic step.
- Drivers and transport: Mongo, Redis, socket.io, gorilla websockets and JSON encoding. They become sequences, maps, an event log and failure flags. Which driver call fails is a parameter.
- Dates are natural numbers from an abstract clock. Date rendering is not modelled.
- The UI components (Login, Register, AdminPortal, App, main) and the Dashboard's rendering: they only display and navigate.
- The TypeScript auth handlers take username and password as text. A non-string JSON body field is not modelled there.
- bcrypt's error for passwords over 72 bytes is not modelled. `hash` is a total function.
- Common.ParseObjectId: Go re-encodes a parsed id in lower case, but the model keeps the text as given. Ids are compared as exact strings, with no case folding.
- GoNotifications.SendToAllMatching: a duplicate `_id` is detected by the model itself, but any other InsertMany failure (a driver or network error) comes from the parameter `insertStopsAt`. In both cases the copies before the failing one are kept, as an ordered InsertMany does. The driver's error for an empty document list cannot happen, because the caller is itself a listed user.
- GoNotifications.Get: the two driver errors (Find and cursor decoding) are one failure flag, since both answer 500 and change nothing.
- Notifications.Construct: `timestamp` is modelled only as absent or a non-negative number. Mongoose also takes `null` or `""` (stored as a null date), date strings, negative numbers and booleans; the model refuses all of these with a validation failure. `read: null` is stored as null by Mongoose and as false here, because the record's `read` field has no null.
- GoNotifications.Stamp: an `_id` or `userId` that fails to decode stops Go's decoder part-way, leaving the fields after it at their zero values. The model still takes every text field from the body; that error is ignored by the add handler and answered 400 by send-to-all.
- Validators.IsMongoId: the validator library's hexadecimal check also accepts a `0x` or `0h` prefix, so a 24-character text such as "0x" followed by 22 hex digits passes the route and then fails Mongoose's ObjectId cast. The model requires 24 hex digits.
- Controller.Mark: Mongoose casts the path id to an ObjectId case-insensitively, but the model compares ids as exact strings. An upper-case spelling of a stored id updates the record in the code and answers 404 in the model, so that input is not covered.
- Controller.Delete: as for `Controller.Mark`, an upper-case spelling of a stored id deletes the record in the code and answers 404 in the model. The code then emits the upper-case text as the deleted id.
- Reconciler.ClientConverges: the proof holds because the model compares ids as exact strings. In the code, an upper-case DELETE id removes the record and emits the upper-case text; the client filter (frontend/src/store/notificationsSlice.ts:84) compares exactly, so it keeps the record and the client no longer converges. The model answers 404 to that request, so the theorem does not cover it.
- GoAuth.RegisterStoring: an `_id` that fails to decode stops Go's decoder part-way, leaving the later fields (username, password) at their zero values. The model still takes them from the body. The session also holds the id's lower-case re-encoding, which the model does not distinguish (see Common.ParseObjectId).
- JSON bodies: `Json` has absent, null, booleans, integer numbers and strings only. Non-integer numbers, arrays and objects are not modelled, so no contract speaks about bodies that contain them.
- Controller.Get: a cached value that fails to parse as JSON counts as a throwing cache read, so it is the same 500.

## Findings

| source | as written | input that shows it | evidently intended | confidence | as-written member | corrected member |
|---|---|---|---|---|---|---|
| frontend/src/components/Dashboard.tsx:40-45 | every `newNotification` event goes into the list, whoever owns it (the server's `io.emit` reaches every socket) | user "w" creates a notification while user "v" is connected: it appears in v's list | a client keeps only its own user's records | not executed | Reconciler.AsWrittenShowsOtherUsersCreates | Reconciler.ClientConverges |
| backend/notifications.go:98 | mark filters `userId` on the session id as a string; stored owners are ObjectIds, so nothing matches | any mark of one's own record answers 404 | match the owner as an ObjectId | not executed | GoNotifications.AsWrittenMarkNeverMatches | GoNotifications.MarkFindsOwnRecord |
| backend/notifications.go:126 | delete filters `userId` on the session id as a string | any delete of one's own record answers 404 | match the owner as an ObjectId | not executed | GoNotifications.AsWrittenDeleteNeverMatches | GoNotifications.DeleteRemovesOnlyTarget |
| backend/notifications.go:157 | the admin lookup queries `_id` with the session id as a string; user ids are ObjectIds | an admin's send-to-all answers 401 | look up the caller by ObjectId | not executed | GoNotifications.AsWrittenSendToAllAlwaysUnauthorized | GoNotifications.SendToAllReachesEveryUser |
| backend/auth.go:17 | `Password` is tagged `json:"-"`, so register hashes the empty string | register "alice"/"secret": login with "secret" gets 401, login with "" gets 200 | hash the password the request sent | not executed | GoAuth.AsWrittenRegisterLosesPassword | GoAuth.RegisterThenLogin |

=== FILE: actions.dfy ===
/** The Redux actions the dashboard's store sees. Both slices receive every
    action; the auth slice reacts to some of them by the suffix of their
    type string, so each action has the type string Redux Toolkit gives it. */
module Actions {
  import opened Common
  import Notifications

  datatype Status = Idle | Loading | Succeeded | Failed

  /** The async thunks; each dispatches `<prefix>/pending`, then
      `<prefix>/fulfilled` or `<prefix>/rejected`. */
  datatype Thunk =
    | FetchNotifications
    | AddNotification
    | MarkNotification
    | DeleteNotification
    | Register
    | Login
    | Logout

  function TypePrefix(t: Thunk): string
  {
    match t
    case FetchNotifications => "notifications/fetchNotifications"
    case AddNotification => "notifications/addNotification"
    case MarkNotification => "notifications/markNotification"
    case DeleteNotification => "notifications/deleteNotification"
    case Register => "auth/register"
    case Login => "auth/login"
    case Logout => "auth/logout"
  }

  datatype Action =
    | AddNewNotification(n: Notifications.Notification)
    | UpdateExistingNotification(n: Notifications.Notification)
    | RemoveNotification(id: string)
    | Pending(thunk: Thunk)
    | FetchFulfilled(items: seq<Notifications.Notification>)
    | AddFulfilled(n: Notifications.Notification)
    | MarkFulfilled(n: Notifications.Notification)
    | DeleteFulfilled(id: string)
    | RegisterFulfilled(username: Option<string>)
    | LoginFulfilled(username: Option<string>)
    | LogoutFulfilled
    | Rejected(thunk: Thunk, message: Option<string>)
      /** Any other action, with its type string and `error.message`. */
    | Other(kind: string, message: Option<string>)

  function Type(a: Action): string
  {
    match a
    case AddNewNotification(_) => "notifications/addNewNotification"
    case UpdateExistingNotification(_) => "notifications/updateExistingNotification"
    case RemoveNotification(_) => "notifications/removeNotification"
    case Pending(t) => TypePrefix(t) + "/pending"
    case FetchFulfilled(_) => TypePrefix(FetchNotifications) + "/fulfilled"
    case AddFulfilled(_) => TypePrefix(AddNotification) + "/fulfilled"
    case MarkFulfilled(_) => TypePrefix(MarkNotification) + "/fulfilled"
    case DeleteFulfilled(_) => TypePrefix(Thunk.DeleteNotification) + "/fulfilled"
    case RegisterFulfilled(_) => TypePrefix(Register) + "/fulfilled"
    case LoginFulfilled(_) => TypePrefix(Login) + "/fulfilled"
    case LogoutFulfilled => TypePrefix(Logout) + "/fulfilled"
    case Rejected(t, _) => TypePrefix(t) + "/rejected"
    case Other(kind, _) => kind
  }

  /** The `error.message` an action carries, if any. */
  function ErrorMessage(a: Action): Option<string>
  {
    match a
    case Rejected(_, m) => m
    case Other(_, m) => m
    case _ => None
  }

  lemma EndsWithOfAppend(p: string, q: string, suffix: string)
    requires |suffix| <= |q|
    ensures EndsWith(p + q, suffix) <==> EndsWith(q, suffix)
  {
    assert (p + q)[|p + q| - |suffix|..] == q[|q| - |suffix|..];
  }

  lemma EndsWithDropFirst(s: string, suffix: string)
    requires |suffix| >= 1
    ensures EndsWith(s, suffix) ==> EndsWith(s, suffix[1..])
  {
    if EndsWith(s, suffix) {
      assert s[|s| - |suffix[1..]|..] == s[|s| - |suffix|..][1..];
    }
  }

  /** No type string ends in both "/pending" and "/rejected". */
  lemma PendingRejectedExclusive(s: string)
    ensures !(EndsWith(s, "/pending") && EndsWith(s, "/rejected"))
  {
    if EndsWith(s, "/rejected") {
      assert s[|s| - 8] == "/rejected"[1];
    }
  }

  /** A thunk's type string ends in "/pending" or "/rejected" exactly
      when that is the suffix the thunk appended. */
  lemma PrefixedSuffixes(t: Thunk, tail: string)
    requires tail == "/pending" || tail == "/rejected" || tail == "/fulfilled"
    ensures EndsWith(TypePrefix(t) + tail, "/pending") <==> tail == "/pending"
    ensures EndsWith(TypePrefix(t) + tail, "/rejected") <==> tail == "/rejected"
  {
    var pending, rejected := "/pending", "/rejected";
    if tail == "/pending" {
      EndsWithOfAppend(TypePrefix(t), pending, pending);
      EndsWithDropFirst(TypePrefix(t) + tail, rejected);
      EndsWithOfAppend(TypePrefix(t), pending, rejected[1..]);
      assert pending[0] != rejected[1..][0];
    } else if tail == "/rejected" {
      EndsWithOfAppend(TypePrefix(t), rejected, pending);
      assert !EndsWith(rejected, pending) by {
        assert rejected[|rejected| - |pending|..][0] != pending[0];
      }
      EndsWithOfAppend(TypePrefix(t), rejected, rejected);
    } else {
      EndsWithOfAppend(TypePrefix(t), tail, pending);
      EndsWithOfAppend(TypePrefix(t), tail, rejected);
      assert !EndsWith(tail, pending) by {
        assert tail[|tail| - |pending|..][0] != pending[0];
      }
      assert !EndsWith(tail, rejected) by {
        assert tail[|tail| - |rejected|..][0] != rejected[0];
      }
    }
  }

  /** Which of the two matcher suffixes an action's type ends with: only
      pending actions end in "/pending", only rejected ones in "/rejected"
      (apart from foreign actions, whose type is theirs to choose). */
  lemma TypeSuffixes(a: Action)
    ensures !a.Other? ==> (EndsWith(Type(a), "/pending") <==> a.Pending?)
    ensures !a.Other? ==> (EndsWith(Type(a), "/rejected") <==> a.Rejected?)
  {
    match a
    case Pending(t) => PrefixedSuffixes(t, "/pending");
    case Rejected(t, _) => PrefixedSuffixes(t, "/rejected");
    case FetchFulfilled(_) => PrefixedSuffixes(FetchNotifications, "/fulfilled");
    case AddFulfilled(_) => PrefixedSuffixes(AddNotification, "/fulfilled");
    case MarkFulfilled(_) => PrefixedSuffixes(MarkNotification, "/fulfilled");
    case DeleteFulfilled(_) => PrefixedSuffixes(Thunk.DeleteNotification, "/fulfilled");
    case RegisterFulfilled(_) => PrefixedSuffixes(Register, "/fulfilled");
    case LoginFulfilled(_) => PrefixedSuffixes(Login, "/fulfilled");
    case LogoutFulfilled => PrefixedSuffixes(Logout, "/fulfilled");
    case AddNewNotification(_) =>
      assert Type(a)[|Type(a)| - 1] == 'n';
    case UpdateExistingNotification(_) =>
      assert Type(a)[|Type(a)| - 1] == 'n';
    case RemoveNotification(_) =>
      assert Type(a)[|Type(a)| - 1] == 'n';
    case Other(_, _) =>
  }
}

=== FILE: auth.dfy ===
/** The TypeScript accounts: the users collection and the express session
    behind `register`, `login` and `logout`. Password hashing happens in
    the User model (backend/models/User.ts is not part of this model), so
    `hash` and `matches` are function parameters standing for the stored
    hash and `comparePassword`. */
module AuthController {
  import opened Common

  datatype Account = Account(id: string, username: string, passwordHash: string)

  datatype AuthServer = AuthServer(users: seq<Account>, session: Option<string>)

  datatype AuthOutcome = AuthOutcome(server: AuthServer, status: nat, message: string)

  /** Which awaited call rejects. */
  datatype AuthFaults = AuthFaults(findFails: bool, saveFails: bool)

  /** The field the login and register lookups match on. */
  function Username(a: Account): string
  {
    a.username
  }

  /** `register`. */
  function Register(s: AuthServer, username: string, password: string, freshId: string,
                    hash: string -> string, f: AuthFaults): (o: AuthOutcome)
    ensures o.status in {201, 400, 500}
    ensures o.status == 400 <==> !f.findFails && FirstWith(s.users, Username, username).Some?
    ensures o.status != 201 ==> o.server == s
    ensures o.status == 201 <==> !f.findFails && !f.saveFails && FirstWith(s.users, Username, username).None?
    ensures o.status == 201 ==>
      && o.server.users == s.users + [Account(freshId, username, hash(password))]
      && o.server.session == Some(freshId)
  {
    if f.findFails then AuthOutcome(s, 500, "Error registering user")
    else if FirstWith(s.users, Username, username).Some? then AuthOutcome(s, 400, "Username already exists")
    else if f.saveFails then AuthOutcome(s, 500, "Error registering user")
    else AuthOutcome(AuthServer(s.users + [Account(freshId, username, hash(password))], Some(freshId)),
                     201, "User registered successfully")
  }

  /** `login`. */
  function Login(s: AuthServer, username: string, password: string,
                 matches: (string, string) -> bool, findFails: bool): (o: AuthOutcome)
    ensures o.status in {200, 401, 500}
    ensures o.status != 200 ==> o.server == s
    ensures o.status == 500 <==> findFails
    ensures o.status == 401 <==>
      && !findFails
      && (|| FirstWith(s.users, Username, username).None?
          || !matches(s.users[FirstWith(s.users, Username, username).value].passwordHash, password))
    ensures o.status == 200 ==>
      && FirstWith(s.users, Username, username).Some?
      && o.server == s.(session := Some(s.users[FirstWith(s.users, Username, username).value].id))
  {
    if findFails then AuthOutcome(s, 500, "Error logging in")
    else
      match FirstWith(s.users, Username, username)
      case None => AuthOutcome(s, 401, "Invalid credentials")
      case Some(i) =>
        if !matches(s.users[i].passwordHash, password) then AuthOutcome(s, 401, "Invalid credentials")
        else AuthOutcome(s.(session := Some(s.users[i].id)), 200, "Logged in successfully")
  }

  /** `logout`: `session.destroy`, answering 500 if it fails. */
  function Logout(s: AuthServer, destroyFails: bool): (o: AuthOutcome)
    ensures o.server.users == s.users
    ensures o.status == 200 <==> !destroyFails
    ensures o.status == 200 ==> o.server.session.None?
    ensures o.status != 200 ==> o.server == s
  {
    if destroyFails then AuthOutcome(s, 500, "Error logging out")
    else AuthOutcome(s.(session := None), 200, "Logged out successfully")
  }

  /** A second registration under a taken name is refused and leaves the
      accounts and the session as they were. */
  lemma DuplicateRegistrationRefused(s: AuthServer, name: string, p: string, q: string, id1: string, id2: string,
                                     hash: string -> string)
    requires FirstWith(s.users, Username, name).None?
    ensures var r := Register(s, name, p, id1, hash, AuthFaults(false, false));
      && r.status == 201
      && Register(r.server, name, q, id2, hash, AuthFaults(false, false)).status == 400
      && Register(r.server, name, q, id2, hash, AuthFaults(false, false)).server == r.server
  {
    var r := Register(s, name, p, id1, hash, AuthFaults(false, false));
    assert r.server.users[|s.users|].username == name;
  }

  /** With `comparePassword` accepting a password against its own hash, a
      fresh account can log in with the password it registered with. */
  lemma RegisterThenLogin(s: AuthServer, name: string, password: string, freshId: string,
                          hash: string -> string, matches: (string, string) -> bool)
    requires forall p :: matches(hash(p), p)
    requires FirstWith(s.users, Username, name).None?
    ensures var r := Register(s, name, password, freshId, hash, AuthFaults(false, false));
      && r.status == 201
      && Login(r.server, name, password, matches, false).status == 200
      && Login(r.server, name, password, matches, false).server.session == Some(freshId)
  {
    var users := s.users + [Account(freshId, name, hash(password))];
    FirstWithAppend(s.users, Username, Account(freshId, name, hash(password)));
    assert FirstWith(users, Username, name) == Some(|s.users|);
  }

}

/** The checks on the auth routes. Logout has none. */
module AuthRoutes {
  import opened Common
  import opened Validators

  /** POST /register: a username and a password of at least six
      characters. */
  predicate RegisterValid(username: Json, password: Json)
    ensures RegisterValid(username, password) ==>
      !(username.Missing? || username.Null? || (username.Str? && username.s == ""))
    ensures RegisterValid(username, password) ==>
      !password.Missing? && !password.Null? && |ValidatorText(password)| >= 6
    ensures username.Str? && username.s != "" && password.Str? &&
            (forall i :: 0 <= i < |password.s| ==> !IsVariationSelector(password.s[i])) ==>
      (RegisterValid(username, password) <==> |password.s| >= 6)
  {
    NotEmpty(username) && MinLength(password, 6)
  }

  /** POST /login: a username and any non-empty password. */
  predicate LoginValid(username: Json, password: Json)
    ensures LoginValid(username, password) <==>
      && !(username.Missing? || username.Null? || (username.Str? && username.s == ""))
      && !(password.Missing? || password.Null? || (password.Str? && password.s == ""))
  {
    NotEmpty(username) && NotEmpty(password)
  }

  /** The length bound is inclusive: six counted characters pass, five do
      not; a variation selector does not count, so five letters followed
      by U+FE0F are refused. */
  lemma PasswordLengthBoundary(username: string, p: string)
    requires username != ""
    ensures VisibleLength(p) == 6 ==> RegisterValid(Str(username), Str(p))
    ensures VisibleLength(p) == 5 ==> !RegisterValid(Str(username), Str(p))
    ensures !RegisterValid(Str(username), Str("abcde\U{FE0F}"))
  {
    assert "abcde\U{FE0F}"[..5] == "abcde";
    assert VisibleLength("abcde") == 5 by {
      assert forall i :: 0 <= i < |"abcde"| ==> !IsVariationSelector("abcde"[i]);
    }
  }

  /** Every register body passes the login checks, but login accepts
      passwords register would refuse. */
  lemma LoginChecksAreWeaker(username: Json, password: Json)
    ensures RegisterValid(username, password) ==> LoginValid(username, password)
    ensures NotEmpty(username) ==> LoginValid(username, Str("a")) && !RegisterValid(username, Str("a"))
  {
  }
}

=== FILE: auth_slice.dfy ===
/** The client's auth slice. Its three case reducers handle its own thunks'
    fulfilled actions; two matchers then run on EVERY action whose type ends
    in "/pending" or "/rejected", including the notifications thunks. */
module AuthSlice {
  import opened Common
  import opened Actions

  datatype State = State(isAuthenticated: bool, user: Option<string>, status: Status, error: Option<string>)

  const Initial: State := State(false, None, Idle, None)

  const DefaultError: string := "An error occurred"

  /** `action.error.message || "An error occurred"`. */
  function MessageOrDefault(m: Option<string>): (r: string)
    ensures r != ""
    ensures m.Some? && m.value != "" ==> r == m.value
    ensures !(m.Some? && m.value != "") ==> r == DefaultError
  {
    if m.Some? && m.value != "" then m.value else DefaultError
  }

  function CaseReduce(st: State, a: Action): State
  {
    match a
    case RegisterFulfilled(name) => st.(isAuthenticated := true, user := name, status := Succeeded)
    case LoginFulfilled(name) => st.(isAuthenticated := true, user := name, status := Succeeded)
    case LogoutFulfilled => st.(isAuthenticated := false, user := None, status := Idle)
    case _ => st
  }

  /** The slice's reducer: the matching case reducer, then every matcher
      whose predicate holds on the action's type string. */
  function Reduce(st: State, a: Action): (r: State)
    ensures (a.RegisterFulfilled? || a.LoginFulfilled?) ==>
      r == st.(isAuthenticated := true, user := a.username, status := Succeeded)
    ensures a.LogoutFulfilled? ==>
      r.isAuthenticated == false && r.user == None && r.status == Idle && r.error == st.error
    ensures EndsWith(Type(a), "/pending") ==> r.status == Loading && r.error == None
    ensures EndsWith(Type(a), "/rejected") ==> r.status == Failed && r.error == Some(MessageOrDefault(ErrorMessage(a)))
    ensures !EndsWith(Type(a), "/pending") && !EndsWith(Type(a), "/rejected") ==> r.error == st.error
  {
    TypeSuffixes(a);
    PendingRejectedExclusive(Type(a));
    var afterCase := CaseReduce(st, a);
    var afterPending :=
      if EndsWith(Type(a), "/pending") then afterCase.(status := Loading, error := None) else afterCase;
    if EndsWith(Type(a), "/rejected") then
      afterPending.(status := Failed, error := Some(MessageOrDefault(ErrorMessage(a))))
    else afterPending
  }

  /** The auth slice reacts to every thunk's lifecycle: the notifications
      fetch starting puts auth into `loading` and wipes an auth error, and
      the fetch failing puts auth into `failed` with the fetch's message. */
  lemma ForeignThunksDriveAuthStatus(st: State, m: Option<string>)
    ensures Reduce(st, Pending(FetchNotifications)) == st.(status := Loading, error := None)
    ensures Reduce(st, Rejected(FetchNotifications, m)) == st.(status := Failed, error := Some(MessageOrDefault(m)))
  {
    TypeSuffixes(Pending(FetchNotifications));
    TypeSuffixes(Rejected(FetchNotifications, m));
  }

  /** Logging in and then out returns to the initial state except for the
      error, which logout keeps. */
  lemma LoginThenLogout(st: State, name: Option<string>)
    ensures Reduce(Reduce(st, LoginFulfilled(name)), LogoutFulfilled) == Initial.(error := st.error)
  {
  }
}

=== FILE: cache.dfy ===
/** The Redis cache in front of the notifications collection: one key per
    user, `notifications:<userId>`, holding that user's snapshot with an
    expiry time. Time is an abstract clock in seconds; an entry whose
    expiry has been reached reads as absent, as Redis's SETEX promises. */
module Cache {
  import opened Common
  import opened Notifications

  /** The TTL the read path passes to SETEX, in seconds. */
  const TtlSeconds: nat := 3600

  datatype Entry = Entry(snapshot: seq<Notification>, expiresAt: nat)

  type Redis = map<string, Entry>

  const KeyPrefix: string := "notifications:"

  function Key(userId: string): string
  {
    KeyPrefix + userId
  }

  /** Distinct users never share a cache key. */
  lemma KeyInjective(u: string, v: string)
    ensures Key(u) == Key(v) ==> u == v
  {
    if Key(u) == Key(v) {
      assert u == Key(u)[|KeyPrefix|..];
      assert v == Key(v)[|KeyPrefix|..];
    }
  }

  predicate Live(e: Entry, now: nat)
  {
    now < e.expiresAt
  }

  /** `GET key` at time `now`. A stored snapshot is JSON text and never the
      empty string, so the controller's truthiness test is a presence test:
      an empty snapshot is still a hit. */
  function Get(c: Redis, key: string, now: nat): (r: Option<seq<Notification>>)
    ensures r.Some? <==> key in c && Live(c[key], now)
    ensures r.Some? ==> r.value == c[key].snapshot
  {
    if key in c && Live(c[key], now) then Some(c[key].snapshot) else None
  }

  /** `SETEX key ttl value` at time `now`. */
  function SetEx(c: Redis, key: string, ttl: nat, v: seq<Notification>, now: nat): (r: Redis)
    ensures r.Keys == c.Keys + {key}
    ensures forall k :: k in c && k != key ==> r[k] == c[k]
    ensures ttl > 0 ==> Get(r, key, now) == Some(v)
    ensures forall later: nat :: later >= now + ttl ==> Get(r, key, later) == None
  {
    c[key := Entry(v, now + ttl)]
  }

  /** `DEL key`: unconditional, and a no-op on an absent key. */
  function Del(c: Redis, key: string): (r: Redis)
    ensures key !in r
    ensures r.Keys == c.Keys - {key}
    ensures forall k :: k in r ==> r[k] == c[k]
    ensures key !in c ==> r == c
  {
    c - {key}
  }

  lemma DelIdempotent(c: Redis, key: string)
    ensures Del(Del(c, key), key) == Del(c, key)
  {
  }

  /** A snapshot stored with TTL 3600 is served until the TTL runs out and
      never afterwards, without any explicit invalidation. */
  lemma SnapshotExpires(c: Redis, u: string, v: seq<Notification>, now: nat, later: nat)
    ensures later < now + TtlSeconds ==> Get(SetEx(c, Key(u), TtlSeconds, v, now), Key(u), later) == Some(v)
    ensures later >= now + TtlSeconds ==> Get(SetEx(c, Key(u), TtlSeconds, v, now), Key(u), later) == None
  {
  }
}

=== FILE: coherence.dfy ===
/** Cache coherence for the TypeScript controller: every live cache entry
    equals what the store query would return now. Each handler keeps this
    invariant as long as its cache delete does not throw, so every
    successful read returns the store's current state; a throwing cache
    delete after a successful store write leaves a stale entry that is
    served until its TTL runs out. */
module Coherence {
  import opened Common
  import opened Notifications
  import opened Store
  import Cache
  import opened Controller

  ghost predicate Coherent(s: Server)
  {
    forall u :: Cache.Key(u) in s.cache && Cache.Live(s.cache[Cache.Key(u)], s.clock) ==>
      s.cache[Cache.Key(u)].snapshot == Load(s.store, Owner(u))
  }

  /** The time step between requests. */
  function Tick(s: Server, dt: nat): (r: Server)
    ensures r.clock == s.clock + dt && r.store == s.store && r.cache == s.cache && r.emitted == s.emitted
  {
    s.(clock := s.clock + dt)
  }

  /** On a coherent server a successful read returns exactly the owner's
      records in the store, newest first, whether it hit the cache or not. */
  lemma ReadsServeStoreState(s: Server, u: string, f: Faults)
    requires Coherent(s)
    requires Get(s, u, f).reply.status == 200
    ensures Get(s, u, f).reply.body == Docs(Load(s.store, Owner(u)))
  {
  }

  /** Once an entry has expired, a read goes back to the store even when
      the entry was stale. */
  lemma ExpiredEntryIsReloaded(s: Server, u: string)
    requires Cache.Key(u) in s.cache ==> s.clock >= s.cache[Cache.Key(u)].expiresAt
    ensures Get(s, u, NoFaults).reply == Reply(200, Docs(Load(s.store, Owner(u))))
  {
  }

  lemma GetKeepsCoherent(s: Server, u: string, f: Faults)
    requires Coherent(s)
    ensures Coherent(Get(s, u, f).server)
  {
    var o := Get(s, u, f);
    forall v | Cache.Key(v) in o.server.cache && Cache.Live(o.server.cache[Cache.Key(v)], o.server.clock)
      ensures o.server.cache[Cache.Key(v)].snapshot == Load(o.server.store, Owner(v))
    {
      Cache.KeyInjective(u, v);
      if v != u {
        assert Cache.Key(v) in s.cache;
      }
    }
  }

  lemma TickKeepsCoherent(s: Server, dt: nat)
    requires Coherent(s)
    ensures Coherent(Tick(s, dt))
  {
  }

  /** After a write by `u` with a store that changed only in `u`'s records,
      and `u`'s cache key removed, every other user's entry is still
      coherent. */
  lemma InvalidationRestoresCoherence(s: Server, t: Server, u: string)
    requires Coherent(s)
    requires Cache.Key(u) !in t.cache
    requires KeptOtherKeys(s.cache, t.cache, Cache.Key(u))
    requires t.clock == s.clock
    requires forall v :: v != u ==> OwnedBy(t.store, Owner(v)) == OwnedBy(s.store, Owner(v))
    ensures Coherent(t)
  {
    forall v | Cache.Key(v) in t.cache && Cache.Live(t.cache[Cache.Key(v)], t.clock)
      ensures t.cache[Cache.Key(v)].snapshot == Load(t.store, Owner(v))
    {
      assert Cache.Key(v) in t.cache.Keys - {Cache.Key(u)};
      assert Cache.Key(v) in s.cache;
      assert OwnedBy(t.store, Owner(v)) == OwnedBy(s.store, Owner(v));
    }
  }

  lemma AddKeepsCoherent(s: Server, u: string, body: NotificationBody, freshId: string, f: Faults)
    requires Coherent(s)
    requires !f.cacheDel
    ensures Coherent(Add(s, u, body, freshId, f).server)
  {
    var o := Add(s, u, body, freshId, f);
    if o.reply.status == 201 {
      var n := Construct(body, u, s.clock, freshId).value;
      forall v | v != u
        ensures OwnedBy(o.server.store, Owner(v)) == OwnedBy(s.store, Owner(v))
      {
        OwnedByAppend(s.store, [n], Owner(v));
        assert OwnedBy([n], Owner(v)) == [];
      }
      InvalidationRestoresCoherence(s, o.server, u);
    } else {
      assert o.server == s;
    }
  }

  lemma MarkKeepsCoherent(s: Server, u: string, id: string, read: bool, f: Faults)
    requires Coherent(s)
    requires !f.cacheDel
    ensures Coherent(Mark(s, u, id, read, f).server)
  {
    var o := Mark(s, u, id, read, f);
    if o.reply.status == 200 {
      var i := FindOwned(s.store, id, Owner(u)).value;
      var n := s.store[i].(read := read);
      forall v | v != u
        ensures OwnedBy(o.server.store, Owner(v)) == OwnedBy(s.store, Owner(v))
      {
        OwnedByReplaceOther(s.store, i, n, Owner(v));
      }
      InvalidationRestoresCoherence(s, o.server, u);
    }
  }

  lemma DeleteKeepsCoherent(s: Server, u: string, id: string, f: Faults)
    requires Coherent(s)
    requires !f.cacheDel
    ensures Coherent(Delete(s, u, id, f).server)
  {
    var o := Delete(s, u, id, f);
    if o.reply.status == 200 {
      var i := FindOwned(s.store, id, Owner(u)).value;
      forall v | v != u
        ensures OwnedBy(o.server.store, Owner(v)) == OwnedBy(s.store, Owner(v))
      {
        OwnedByRemoveOther(s.store, i, Owner(v));
      }
      InvalidationRestoresCoherence(s, o.server, u);
    }
  }

  /** One request or one clock step against the TypeScript server. */
  datatype Op =
    | GetOp(u: string, f: Faults)
    | AddOp(u: string, body: NotificationBody, freshId: string, f: Faults)
    | MarkOp(u: string, id: string, read: bool, f: Faults)
    | DeleteOp(u: string, id: string, f: Faults)
    | TickOp(dt: nat)

  function Step(s: Server, op: Op): Server
  {
    match op
    case GetOp(u, f) => Get(s, u, f).server
    case AddOp(u, body, freshId, f) => Add(s, u, body, freshId, f).server
    case MarkOp(u, id, read, f) => Mark(s, u, id, read, f).server
    case DeleteOp(u, id, f) => Delete(s, u, id, f).server
    case TickOp(dt) => Tick(s, dt)
  }

  function Run(s: Server, ops: seq<Op>): Server
    decreases |ops|
  {
    if |ops| == 0 then s else Run(Step(s, ops[0]), ops[1..])
  }

  /** Every cache delete in the history succeeded (other calls may throw). */
  predicate InvalidationsSucceed(ops: seq<Op>)
  {
    forall i :: 0 <= i < |ops| && !ops[i].TickOp? ==> !ops[i].f.cacheDel
  }

  lemma StepKeepsCoherent(s: Server, op: Op)
    requires Coherent(s)
    requires op.TickOp? || !op.f.cacheDel
    ensures Coherent(Step(s, op))
  {
    match op {
      case GetOp(u, f) => GetStepKeepsCoherent(s, u, f);
      case AddOp(u, body, freshId, f) => AddStepKeepsCoherent(s, u, body, freshId, f);
      case MarkOp(u, id, read, f) => MarkStepKeepsCoherent(s, u, id, read, f);
      case DeleteOp(u, id, f) => DeleteStepKeepsCoherent(s, u, id, f);
      case TickOp(dt) => TickKeepsCoherent(s, dt);
    }
  }

  lemma GetStepKeepsCoherent(s: Server, u: string, f: Faults)
    requires Coherent(s)
    ensures Coherent(Step(s, GetOp(u, f)))
  {
    assert Step(s, GetOp(u, f)) == Get(s, u, f).server;
    GetKeepsCoherent(s, u, f);
  }

  lemma AddStepKeepsCoherent(s: Server, u: string, body: NotificationBody, freshId: string, f: Faults)
    requires Coherent(s) && !f.cacheDel
    ensures Coherent(Step(s, AddOp(u, body, freshId, f)))
  {
    assert Step(s, AddOp(u, body, freshId, f)) == Add(s, u, body, freshId, f).server;
    AddKeepsCoherent(s, u, body, freshId, f);
  }

  lemma MarkStepKeepsCoherent(s: Server, u: string, id: string, read: bool, f: Faults)
    requires Coherent(s) && !f.cacheDel
    ensures Coherent(Step(s, MarkOp(u, id, read, f)))
  {
    assert Step(s, MarkOp(u, id, read, f)) == Mark(s, u, id, read, f).server;
    MarkKeepsCoherent(s, u, id, read, f);
  }

  lemma DeleteStepKeepsCoherent(s: Server, u: string, id: string, f: Faults)
    requires Coherent(s) && !f.cacheDel
    ensures Coherent(Step(s, DeleteOp(u, id, f)))
  {
    assert Step(s, DeleteOp(u, id, f)) == Delete(s, u, id, f).server;
    DeleteKeepsCoherent(s, u, id, f);
  }

  /** A history whose invalidations succeed starts with such a step and
      continues with such a history. */
  lemma InvalidationsSucceedSplit(ops: seq<Op>)
    requires |ops| > 0 && InvalidationsSucceed(ops)
    ensures ops[0].TickOp? || !ops[0].f.cacheDel
    ensures InvalidationsSucceed(ops[1..])
  {
    forall i | 0 <= i < |ops[1..]| && !ops[1..][i].TickOp?
      ensures !ops[1..][i].f.cacheDel
    {
      assert ops[1..][i] == ops[i + 1];
    }
  }

  lemma {:induction false} RunKeepsCoherent(s: Server, ops: seq<Op>)
    requires Coherent(s)
    requires InvalidationsSucceed(ops)
    ensures Coherent(Run(s, ops))
    decreases |ops|
  {
    if |ops| > 0 {
      InvalidationsSucceedSplit(ops);
      StepKeepsCoherent(s, ops[0]);
      RunKeepsCoherent(Step(s, ops[0]), ops[1..]);
    }
  }

  /** Read-after-write freshness: starting from an empty cache, after any
      history in which every invalidation succeeded, a successful read of
      any user returns exactly that user's current records. */
  lemma ReadAfterAnyHistory(store: seq<Notification>, clock: nat, ops: seq<Op>, u: string, f: Faults)
    requires InvalidationsSucceed(ops)
    requires Get(Run(Server(store, map[], clock, []), ops), u, f).reply.status == 200
    ensures Get(Run(Server(store, map[], clock, []), ops), u, f).reply.body
         == Docs(Load(Run(Server(store, map[], clock, []), ops).store, Owner(u)))
  {
    RunKeepsCoherent(Server(store, map[], clock, []), ops);
    ReadsServeStoreState(Run(Server(store, map[], clock, []), ops), u, f);
  }

  /** A cache delete that throws after the store write leaves the old
      snapshot in place: the next read serves it although the store has
      moved on, and no event announced the write. */
  lemma FailedInvalidationServesStaleData()
    ensures var s := Server([], map[Cache.Key("u") := Cache.Entry([], 3600)], 0, []);
            var body := NotificationBody(Missing, Str("A"), Str("m1"), Str("info"), Missing, Missing, Missing);
            var o := Add(s, "u", body, "id1", Faults(false, false, false, true));
            && o.reply.status == 500
            && o.server.emitted == []
            && |o.server.store| == 1
            && Get(o.server, "u", NoFaults).reply == Reply(200, Docs([]))
            && Load(o.server.store, Owner("u")) != []
  {
    var s := Server([], map[Cache.Key("u") := Cache.Entry([], 3600)], 0, []);
    var body := NotificationBody(Missing, Str("A"), Str("m1"), Str("info"), Missing, Missing, Missing);
    var n := Notification("id1", ObjectId("u"), "A", "m1", "info", false, 0);
    assert "info" in Categories;
    assert Construct(body, "u", 0, "id1") == Some(n);
    var o := Add(s, "u", body, "id1", Faults(false, false, false, true));
    assert o.server.store == [n];
    assert n in Load(o.server.store, Owner("u"));
  }
}

=== FILE: common.dfy ===
/** Shared vocabulary: optional values, request-body values as they arrive
    from a JSON body, the string coercion the route validators apply to
    them, and the ObjectId text form both backends use for identifiers. */
module Common {

  datatype Option<+T> = None | Some(value: T) {
    function GetOr(default: T): T {
      match this
      case Some(v) => v
      case None => default
    }
  }

  /** One field of a JSON request body. `Missing` is a field the client did
      not send (JavaScript `undefined`); arrays and objects are not modelled. */
  datatype Json = Missing | Null | Bool(b: bool) | Num(n: int) | Str(s: string)

  predicate EndsWith(s: string, suffix: string)
  {
    |suffix| <= |s| && s[|s| - |suffix|..] == suffix
  }

  lemma EndsWithAppend(p: string, suffix: string)
    ensures EndsWith(p + suffix, suffix)
  {
    assert (p + suffix)[|p + suffix| - |suffix|..] == suffix;
  }

  /** `findOne` on one field of a collection kept in natural order: the
      index of the first element whose `key` is `k`, or none. */
  function FirstWith<T>(s: seq<T>, key: T -> string, k: string): (r: Option<nat>)
    ensures r.Some? ==> r.value < |s| && key(s[r.value]) == k
    ensures r.Some? ==> forall j :: 0 <= j < r.value ==> key(s[j]) != k
    ensures r.None? ==> forall j :: 0 <= j < |s| ==> key(s[j]) != k
  {
    if |s| == 0 then None
    else if key(s[0]) == k then Some(0)
    else
      match FirstWith(s[1..], key, k)
      case None => None
      case Some(i) => Some(i + 1)
  }

  /** An element appended under a key nobody has yet is the one found. */
  lemma {:induction false} FirstWithAppend<T>(s: seq<T>, key: T -> string, x: T)
    requires FirstWith(s, key, key(x)).None?
    ensures FirstWith(s + [x], key, key(x)) == Some(|s|)
  {
    if |s| > 0 {
      assert (s + [x])[1..] == s[1..] + [x];
      assert FirstWith(s[1..], key, key(x)).None?;
      FirstWithAppend(s[1..], key, x);
    }
  }

  /** The number a text of decimal digits spells, most significant digit
      first; the empty text spells 0. */
  function DigitsValue(s: string): int
  {
    if |s| == 0 then 0 else DigitsValue(s[..|s| - 1]) * 10 + (s[|s| - 1] as int - '0' as int)
  }

  /** Decimal text of a natural number, most significant digit first:
      digits only, no leading zero, spelling exactly `n`. */
  function NatDigits(n: nat): (r: string)
    ensures |r| >= 1
    ensures forall i :: 0 <= i < |r| ==> '0' <= r[i] <= '9'
    ensures |r| > 1 ==> r[0] != '0'
    ensures DigitsValue(r) == n
    decreases n
  {
    var d := [(('0' as int) + n % 10) as char];
    if n < 10 then d
    else
      var r := NatDigits(n / 10) + d;
      assert r[..|r| - 1] == NatDigits(n / 10);
      r
  }

  /** `String(n)` for an integer. */
  function DecimalString(n: int): string
  {
    if n < 0 then "-" + NatDigits(-n) else NatDigits(n)
  }

  /** The string the request validator sees for a body field: `undefined`
      and `null` read as the empty string, booleans and numbers as their
      JavaScript `String(...)` text. */
  function ValidatorText(v: Json): (r: string)
    ensures r == "" <==> v.Missing? || v.Null? || (v.Str? && v.s == "")
    ensures v.Str? ==> r == v.s
  {
    match v
    case Missing => ""
    case Null => ""
    case Bool(b) => if b then "true" else "false"
    case Num(n) => DecimalString(n)
    case Str(s) => s
  }

  predicate IsHexDigit(c: char)
  {
    ('0' <= c <= '9') || ('a' <= c <= 'f') || ('A' <= c <= 'F')
  }

  /** The text form of a Mongo ObjectId: exactly 24 hexadecimal characters. */
  predicate IsObjectIdHex(s: string)
  {
    |s| == 24 && forall i :: 0 <= i < |s| ==> IsHexDigit(s[i])
  }

  /** The zero ObjectId, which Go's ObjectIDFromHex returns when it fails. */
  const NilObjectId: string := "000000000000000000000000"

  /** Go's `primitive.ObjectIDFromHex(s)` with its error discarded: a valid
      hex id parses to itself, anything else to the zero id. */
  function ParseObjectId(s: string): (r: string)
    ensures IsObjectIdHex(r)
    ensures IsObjectIdHex(s) ==> r == s
    ensures !IsObjectIdHex(s) ==> r == NilObjectId
  {
    if IsObjectIdHex(s) then s else NilObjectId
  }

  /** The ObjectId a Go struct's `_id` field holds after decoding a JSON
      body: the text itself when it is an ObjectId text, and the zero id
      when the field is absent, empty or fails to decode. */
  function DecodedObjectId(raw: Option<string>): (r: string)
    ensures IsObjectIdHex(r)
    ensures raw.Some? && IsObjectIdHex(raw.value) ==> r == raw.value
    ensures raw.None? || !IsObjectIdHex(raw.value) ==> r == NilObjectId
  {
    ParseObjectId(raw.GetOr(""))
  }

  /** The `_id` an `InsertOne` of a struct tagged `_id,omitempty` ends up
      with: a zero id is left out of the document, so the driver generates
      `freshId`; any other id is inserted as it is. */
  function InsertedId(decoded: string, freshId: string): (r: string)
    ensures decoded == NilObjectId ==> r == freshId
    ensures decoded != NilObjectId ==> r == decoded
  {
    if decoded == NilObjectId then freshId else decoded
  }
}

=== FILE: controller.dfy ===
/** The TypeScript notification controller as a state machine over the
    notifications collection, the Redis cache, a clock and the log of
    socket.io events it emits to every connected socket.

    Every handler runs as one sequential step. The environment decides
    which external call throws (`Faults`); because each handler keeps all
    of its calls in one `try` block, the first throwing call ends the
    request with 500 and skips every later call. Each outcome records the
    calls made, in order, so the write-then-invalidate-then-emit protocol
    can be stated directly. */
module Controller {
  import opened Common
  import opened Notifications
  import opened Store
  import Cache

  datatype Server = Server(
    store: seq<Notification>,
    cache: Cache.Redis,
    clock: nat,
    emitted: seq<Event>)

  /** Which external call of a request throws. */
  datatype Faults = Faults(cacheGet: bool, storeCall: bool, cacheSet: bool, cacheDel: bool)

  const NoFaults: Faults := Faults(false, false, false, false)

  datatype Call =
    | CacheGet(key: string)
    | StoreRead
    | StoreWrite
    | CacheSet(key: string)
    | CacheDel(key: string)
    | Emit(e: Event)

  datatype Payload = Docs(docs: seq<Notification>) | Doc(doc: Notification) | Note(text: string)

  datatype Reply = Reply(status: nat, body: Payload)

  datatype Outcome = Outcome(server: Server, reply: Reply, calls: seq<Call>)

  /** The session user as the value stored in records' `userId`. */
  function Owner(u: string): UserRef
  {
    ObjectId(u)
  }

  predicate KeptOtherKeys(before: Cache.Redis, after: Cache.Redis, key: string)
  {
    && after.Keys - {key} == before.Keys - {key}
    && forall k :: k in after && k in before && k != key ==> after[k] == before[k]
  }

  /** A write that completed: store write, then delete of the writer's
      cache key (and of nothing else), then exactly one emitted event. */
  predicate Completed(s: Server, o: Outcome, u: string, e: Event)
  {
    && o.calls == [StoreWrite, CacheDel(Cache.Key(u)), Emit(e)]
    && Cache.Key(u) !in o.server.cache
    && KeptOtherKeys(s.cache, o.server.cache, Cache.Key(u))
    && o.server.emitted == s.emitted + [e]
    && o.server.clock == s.clock
  }

  /** A request that ended in a 500 before emitting: cache and event log
      untouched, no emit attempted. */
  predicate Aborted(s: Server, o: Outcome)
  {
    && o.reply.status == 500
    && o.server.cache == s.cache
    && o.server.emitted == s.emitted
    && o.server.clock == s.clock
    && forall c :: c in o.calls ==> !c.Emit?
  }

  /** `getNotifications`: a live cache entry is served as is; otherwise the
      user's records are loaded newest first and cached for an hour. */
  function Get(s: Server, u: string, f: Faults): (o: Outcome)
    ensures o.server.store == s.store && o.server.emitted == s.emitted && o.server.clock == s.clock
    ensures KeptOtherKeys(s.cache, o.server.cache, Cache.Key(u))
    ensures o.reply.status == 200 || (o.reply.status == 500 && o.server == s)
    ensures o.reply.status == 500 <==>
      f.cacheGet || (Cache.Get(s.cache, Cache.Key(u), s.clock).None? && (f.storeCall || f.cacheSet))
    ensures !f.cacheGet && Cache.Get(s.cache, Cache.Key(u), s.clock).Some? ==>
      && o.server == s
      && o.reply == Reply(200, Docs(Cache.Get(s.cache, Cache.Key(u), s.clock).value))
      && o.calls == [CacheGet(Cache.Key(u))]
    ensures !f.cacheGet && !f.storeCall && !f.cacheSet && Cache.Get(s.cache, Cache.Key(u), s.clock).None? ==>
      && o.reply == Reply(200, Docs(Load(s.store, Owner(u))))
      && Cache.Get(o.server.cache, Cache.Key(u), s.clock) == Some(Load(s.store, Owner(u)))
      && o.server.cache[Cache.Key(u)].expiresAt == s.clock + Cache.TtlSeconds
      && o.calls == [CacheGet(Cache.Key(u)), StoreRead, CacheSet(Cache.Key(u))]
  {
    var key := Cache.Key(u);
    if f.cacheGet then
      Outcome(s, Reply(500, Note("Error fetching notifications")), [CacheGet(key)])
    else
      match Cache.Get(s.cache, key, s.clock)
      case Some(cached) => Outcome(s, Reply(200, Docs(cached)), [CacheGet(key)])
      case None =>
        if f.storeCall then
          Outcome(s, Reply(500, Note("Error fetching notifications")), [CacheGet(key), StoreRead])
        else
          var docs := Load(s.store, Owner(u));
          if f.cacheSet then
            Outcome(s, Reply(500, Note("Error fetching notifications")), [CacheGet(key), StoreRead, CacheSet(key)])
          else
            Outcome(s.(cache := Cache.SetEx(s.cache, key, Cache.TtlSeconds, docs, s.clock)),
                    Reply(200, Docs(docs)),
                    [CacheGet(key), StoreRead, CacheSet(key)])
  }

  /** `addNotification`: build the record from the body with the session
      user as owner, save it, delete the user's cache key, emit
      `newNotification`. */
  function Add(s: Server, u: string, body: NotificationBody, freshId: string, f: Faults): (o: Outcome)
    ensures o.reply.status == 201 || Aborted(s, o)
    ensures o.reply.status == 201 <==>
      && Construct(body, u, s.clock, freshId).Some?
      && !f.storeCall
      && !HasId(s.store, Construct(body, u, s.clock, freshId).value.id)
      && !f.cacheDel
    ensures o.reply.status == 201 ==>
      var n := Construct(body, u, s.clock, freshId).value;
      && n.userId == Owner(u)
      && o.server.store == s.store + [n]
      && o.reply.body == Doc(n)
      && Completed(s, o, u, NewNotification(n))
    ensures Construct(body, u, s.clock, freshId).Some? && !f.storeCall &&
            !HasId(s.store, Construct(body, u, s.clock, freshId).value.id) && f.cacheDel ==>
      && o.server.store == s.store + [Construct(body, u, s.clock, freshId).value]
      && Aborted(s, o)
      && o.calls == [StoreWrite, CacheDel(Cache.Key(u))]
    ensures o.server.store != s.store ==> StoreWrite in o.calls && o.calls[0] == StoreWrite
    ensures f.storeCall ==> o.server == s
    ensures IdsUnique(s.store) ==> IdsUnique(o.server.store)
  {
    var key := Cache.Key(u);
    match Construct(body, u, s.clock, freshId)
    case None => Outcome(s, Reply(500, Note("Error adding notification")), [])
    case Some(n) =>
      if f.storeCall || HasId(s.store, n.id) then
        Outcome(s, Reply(500, Note("Error adding notification")), [StoreWrite])
      else
        var written := s.(store := s.store + [n]);
        if f.cacheDel then
          Outcome(written, Reply(500, Note("Error adding notification")), [StoreWrite, CacheDel(key)])
        else
          Outcome(written.(cache := Cache.Del(s.cache, key), emitted := s.emitted + [NewNotification(n)]),
                  Reply(201, Doc(n)),
                  [StoreWrite, CacheDel(key), Emit(NewNotification(n))])
  }

  /** `markNotification`: set `read` on the record matching both the id
      and the session user; 404 with no invalidation and no emit when
      there is none. */
  function Mark(s: Server, u: string, id: string, read: bool, f: Faults): (o: Outcome)
    ensures o.reply.status in {200, 404, 500}
    ensures o.reply.status != 200 ==> o.server.cache == s.cache && o.server.emitted == s.emitted
    ensures o.reply.status == 404 <==> !f.storeCall && FindOwned(s.store, id, Owner(u)).None?
    ensures o.reply.status == 404 ==> o.server == s && o.calls == [StoreWrite]
    ensures o.reply.status == 200 <==> !f.storeCall && FindOwned(s.store, id, Owner(u)).Some? && !f.cacheDel
    ensures o.reply.status == 200 ==>
      var i := FindOwned(s.store, id, Owner(u)).value;
      var n := s.store[i].(read := read);
      && o.server.store == s.store[i := n]
      && o.reply.body == Doc(n)
      && Completed(s, o, u, UpdateNotification(n))
    ensures !f.storeCall && FindOwned(s.store, id, Owner(u)).Some? && f.cacheDel ==>
      var i := FindOwned(s.store, id, Owner(u)).value;
      && o.server.store == s.store[i := s.store[i].(read := read)]
      && Aborted(s, o)
      && o.calls == [StoreWrite, CacheDel(Cache.Key(u))]
    ensures f.storeCall ==> o.server == s && Aborted(s, o)
    ensures IdsUnique(s.store) ==> IdsUnique(o.server.store)
  {
    var key := Cache.Key(u);
    if f.storeCall then
      Outcome(s, Reply(500, Note("Error updating notification")), [StoreWrite])
    else
      match FindOwned(s.store, id, Owner(u))
      case None => Outcome(s, Reply(404, Note("Notification not found")), [StoreWrite])
      case Some(i) =>
        var n := s.store[i].(read := read);
        var written := s.(store := s.store[i := n]);
        if f.cacheDel then
          Outcome(written, Reply(500, Note("Error updating notification")), [StoreWrite, CacheDel(key)])
        else
          Outcome(written.(cache := Cache.Del(s.cache, key), emitted := s.emitted + [UpdateNotification(n)]),
                  Reply(200, Doc(n)),
                  [StoreWrite, CacheDel(key), Emit(UpdateNotification(n))])
  }

  /** `deleteNotification`: remove the record matching both the id and
      the session user, invalidate, emit `deleteNotification` with the id
      from the request path. */
  function Delete(s: Server, u: string, id: string, f: Faults): (o: Outcome)
    ensures o.reply.status in {200, 404, 500}
    ensures o.reply.status != 200 ==> o.server.cache == s.cache && o.server.emitted == s.emitted
    ensures o.reply.status == 404 <==> !f.storeCall && FindOwned(s.store, id, Owner(u)).None?
    ensures o.reply.status == 404 ==> o.server == s && o.calls == [StoreWrite]
    ensures o.reply.status == 200 <==> !f.storeCall && FindOwned(s.store, id, Owner(u)).Some? && !f.cacheDel
    ensures o.reply.status == 200 ==>
      var i := FindOwned(s.store, id, Owner(u)).value;
      && o.server.store == s.store[..i] + s.store[i+1..]
      && Completed(s, o, u, Event.DeleteNotification(id))
    ensures !f.storeCall && FindOwned(s.store, id, Owner(u)).Some? && f.cacheDel ==>
      var i := FindOwned(s.store, id, Owner(u)).value;
      && o.server.store == s.store[..i] + s.store[i+1..]
      && Aborted(s, o)
      && o.calls == [StoreWrite, CacheDel(Cache.Key(u))]
    ensures f.storeCall ==> o.server == s && Aborted(s, o)
  {
    var key := Cache.Key(u);
    if f.storeCall then
      Outcome(s, Reply(500, Note("Error deleting notification")), [StoreWrite])
    else
      match FindOwned(s.store, id, Owner(u))
      case None => Outcome(s, Reply(404, Note("Notification not found")), [StoreWrite])
      case Some(i) =>
        var written := s.(store := s.store[..i] + s.store[i+1..]);
        if f.cacheDel then
          Outcome(written, Reply(500, Note("Error deleting notification")), [StoreWrite, CacheDel(key)])
        else
          Outcome(written.(cache := Cache.Del(s.cache, key), emitted := s.emitted + [Event.DeleteNotification(id)]),
                  Reply(200, Note("Notification deleted")),
                  [StoreWrite, CacheDel(key), Emit(Event.DeleteNotification(id))])
  }
}

=== FILE: dashboard.dfy ===
/** The dashboard's derived values and its wiring: the category filter,
    the unread badge, the read toggle and the mapping from socket.io
    events to slice actions. */
module Dashboard {
  import opened Notifications
  import opened Actions
  import NotificationsSlice

  /** The filter chips: "all" or one category. */
  datatype Filter = All | Only(category: string)

  /** `filteredNotifications`. */
  function Visible(items: seq<Notification>, filter: Filter): (r: seq<Notification>)
    ensures filter.All? ==> r == items
    ensures forall x :: x in r <==> x in items && (filter.All? || x.category == filter.category)
    ensures |r| <= |items|
  {
    if |items| == 0 then []
    else
      var rest := Visible(items[1..], filter);
      assert items == [items[0]] + items[1..];
      if filter.All? || items[0].category == filter.category then [items[0]] + rest else rest
  }

  /** The filter keeps the list's order: filtering a concatenation
      concatenates the filtered parts. */
  lemma {:induction false} VisibleDistributes(a: seq<Notification>, b: seq<Notification>, filter: Filter)
    ensures Visible(a + b, filter) == Visible(a, filter) + Visible(b, filter)
  {
    if |a| == 0 {
      assert a + b == b;
    } else {
      assert (a + b)[1..] == a[1..] + b;
      VisibleDistributes(a[1..], b, filter);
    }
  }

  /** The three category chips split the list: every item of a valid
      category shows under exactly one of them. */
  lemma CategoriesPartition(items: seq<Notification>, x: Notification)
    requires x in items && ValidCategory(x.category)
    ensures x in Visible(items, Only(x.category))
    ensures forall c :: c in Categories && c != x.category ==> x !in Visible(items, Only(c))
  {
  }

  /** `unreadCount`. */
  function UnreadCount(items: seq<Notification>): (r: nat)
    ensures r <= |items|
    ensures r == 0 <==> forall x :: x in items ==> x.read
    ensures r == |items| <==> forall x :: x in items ==> !x.read
  {
    if |items| == 0 then 0
    else
      assert items == [items[0]] + items[1..];
      (if items[0].read then 0 else 1) + UnreadCount(items[1..])
  }

  lemma {:induction false} UnreadCountAdditive(a: seq<Notification>, b: seq<Notification>)
    ensures UnreadCount(a + b) == UnreadCount(a) + UnreadCount(b)
  {
    if |a| == 0 {
      assert a + b == b;
    } else {
      assert (a + b)[1..] == a[1..] + b;
      UnreadCountAdditive(a[1..], b);
    }
  }

  /** A pushed create raises the badge by one exactly when the new
      notification is unread, duplicates included. */
  lemma UnreadAfterAdd(items: seq<Notification>, n: Notification)
    ensures UnreadCount(NotificationsSlice.AddNew(items, n)) == UnreadCount(items) + (if n.read then 0 else 1)
  {
    UnreadCountAdditive([n], items);
  }

  /** `handleMarkRead(id, currentStatus)` dispatches
      `markNotification({id, read: !currentStatus})`. */
  datatype MarkRequest = MarkRequest(id: string, read: bool)

  function MarkReadRequest(n: Notification): (r: MarkRequest)
    ensures r.id == n.id && r.read != n.read
  {
    MarkRequest(n.id, !n.read)
  }

  /** The button is a toggle: clicking on the record the server returns
      for the first click asks for the original value again. */
  lemma MarkReadToggles(n: Notification)
    ensures MarkReadRequest(n.(read := MarkReadRequest(n).read)).read == n.read
    ensures MarkReadRequest(n.(read := MarkReadRequest(n).read)).id == n.id
  {
  }

  /** The socket listeners: each server event becomes one plain reducer
      action. */
  function ToAction(e: Event): (a: Action)
    ensures e.NewNotification? <==> a.AddNewNotification?
    ensures e.UpdateNotification? <==> a.UpdateExistingNotification?
    ensures e.DeleteNotification? <==> a.RemoveNotification?
    ensures e.NewNotification? ==> a.n == e.n
    ensures e.UpdateNotification? ==> a.n == e.n
    ensures e.DeleteNotification? ==> a.id == e.id
  {
    match e
    case NewNotification(n) => AddNewNotification(n)
    case UpdateNotification(n) => UpdateExistingNotification(n)
    case DeleteNotification(id) => RemoveNotification(id)
  }

  /** Distinct events dispatch distinct actions, and each lands on the
      matching list reducer without touching status or error. */
  lemma ToActionFaithful(st: NotificationsSlice.State, e: Event, e': Event)
    ensures ToAction(e) == ToAction(e') ==> e == e'
    ensures var r := NotificationsSlice.Reduce(st, ToAction(e));
      && r.status == st.status && r.error == st.error
      && (e.NewNotification? ==> r.items == NotificationsSlice.AddNew(st.items, e.n))
      && (e.UpdateNotification? ==> r.items == NotificationsSlice.UpdateExisting(st.items, e.n))
      && (e.DeleteNotification? ==> r.items == NotificationsSlice.Remove(st.items, e.id))
  {
  }
}

=== FILE: go_auth.dfy ===
/** The Go server's accounts: the users collection, the session's
    `userId` value and the register, login and logout handlers. bcrypt is
    a pair of function parameters: `hash` for GenerateFromPassword and
    `matches(stored, given)` for CompareHashAndPassword succeeding. */
module GoAuth {
  import opened Common

  datatype User = User(id: string, username: string, password: string, role: string)

  datatype AccountState = AccountState(users: seq<User>, session: Option<string>)

  /** What the client receives: a status, the user (password blanked) on
      success, and a message otherwise. */
  datatype AuthReply = AuthReply(status: nat, user: Option<User>, message: string)

  datatype AuthOutcome = AuthOutcome(state: AccountState, reply: AuthReply)

  /** The field the login and register lookups match on. */
  function Username(u: User): string
  {
    u.username
  }

  predicate HasUserId(users: seq<User>, id: string)
  {
    exists j :: 0 <= j < |users| && users[j].id == id
  }

  /** The JSON fields of a register request; `id` is the text of an `_id`
      the client chose to send. */
  datatype RegisterBody = RegisterBody(id: Option<string>, username: string, password: string, role: string)

  /** The id the new account is inserted with: the body's `_id` when it
      decodes to a non-zero ObjectId, otherwise the driver's `freshId`. */
  function AccountId(body: RegisterBody, freshId: string): (r: string)
    ensures body.id.Some? && IsObjectIdHex(body.id.value) && body.id.value != NilObjectId ==> r == body.id.value
    ensures body.id.None? || !IsObjectIdHex(body.id.value) || body.id.value == NilObjectId ==> r == freshId
  {
    InsertedId(DecodedObjectId(body.id), freshId)
  }

  /** The password the handler finds in its decoded `User`: the field is
      tagged `json:"-"`, so the decoder never fills it and it stays empty
      whatever the client sent. */
  function DecodedPassword(body: RegisterBody): (p: string)
    ensures p == ""
  {
    ""
  }

  /** The register flow, storing the hash of `password`. A failing lookup
      counts as "no such user", since only a nil error rejects the name. */
  function RegisterStoring(st: AccountState, body: RegisterBody, password: string, freshId: string,
                           hash: string -> string, findFails: bool, insertFails: bool): (o: AuthOutcome)
    ensures o.reply.status in {200, 400, 500}
    ensures o.reply.status == 400 <==> !findFails && FirstWith(st.users, Username, body.username).Some?
    ensures o.reply.status != 200 ==> o.state == st && o.reply.user.None?
    ensures o.reply.status == 200 ==>
      var id := AccountId(body, freshId);
      && o.state.users == st.users + [User(id, body.username, hash(password), "user")]
      && o.state.session == Some(id)
      && o.reply.user == Some(User(id, body.username, "", "user"))
    ensures o.reply.status == 200 <==>
      && (findFails || FirstWith(st.users, Username, body.username).None?)
      && !insertFails && !HasUserId(st.users, AccountId(body, freshId))
  {
    if !findFails && FirstWith(st.users, Username, body.username).Some? then
      AuthOutcome(st, AuthReply(400, None, "Username already exists"))
    else
      var id := AccountId(body, freshId);
      var stored := User(id, body.username, hash(password), "user");
      if insertFails || HasUserId(st.users, id) then
        AuthOutcome(st, AuthReply(500, None, "insert failed"))
      else
        AuthOutcome(AccountState(st.users + [stored], Some(id)),
                    AuthReply(200, Some(stored.(password := "")), ""))
  }

  /** `register` as written: it hashes the decoded, always empty, password. */
  function RegisterAsWritten(st: AccountState, body: RegisterBody, freshId: string, hash: string -> string,
                             findFails: bool, insertFails: bool): (o: AuthOutcome)
    ensures o.reply.status == 200 ==> |o.state.users| == |st.users| + 1 && o.state.users[|st.users|].password == hash("")
  {
    RegisterStoring(st, body, DecodedPassword(body), freshId, hash, findFails, insertFails)
  }

  /** `register` with the password read from the request, as its hashing
      step evidently intends. */
  function Register(st: AccountState, body: RegisterBody, freshId: string, hash: string -> string,
                    findFails: bool, insertFails: bool): (o: AuthOutcome)
    ensures o.reply.status == 200 ==> |o.state.users| == |st.users| + 1 && o.state.users[|st.users|].password == hash(body.password)
    ensures o.reply.status == 200 ==> |o.state.users| == |st.users| + 1 && o.state.users[|st.users|].role == "user"
  {
    RegisterStoring(st, body, body.password, freshId, hash, findFails, insertFails)
  }

  /** A client cannot register itself as an admin: whatever role the body
      names, the stored user has role "user". */
  lemma RegisterIgnoresRequestedRole(st: AccountState, body: RegisterBody, role: string, freshId: string,
                                     hash: string -> string, findFails: bool, insertFails: bool)
    ensures Register(st, body.(role := role), freshId, hash, findFails, insertFails)
         == Register(st, body, freshId, hash, findFails, insertFails)
    ensures RegisterAsWritten(st, body.(role := role), freshId, hash, findFails, insertFails)
         == RegisterAsWritten(st, body, freshId, hash, findFails, insertFails)
  {
  }

  /** The decoded login body; `None` when it is not valid JSON. */
  datatype LoginBody = LoginBody(username: string, password: string)

  /** `login`. */
  function Login(st: AccountState, body: Option<LoginBody>, matches: (string, string) -> bool,
                 findFails: bool, saveFails: bool): (o: AuthOutcome)
    ensures o.reply.status in {200, 400, 401, 500}
    ensures o.reply.status != 200 ==> o.state == st && o.reply.user.None?
    ensures o.reply.status == 400 <==> body.None?
    ensures o.reply.status == 401 ==> o.reply.message == "Invalid credentials"
    ensures o.reply.status == 401 <==>
      && body.Some?
      && (|| findFails
          || FirstWith(st.users, Username, body.value.username).None?
          || !matches(st.users[FirstWith(st.users, Username, body.value.username).value].password, body.value.password))
    ensures o.reply.status == 200 <==>
      && body.Some? && !findFails && !saveFails
      && FirstWith(st.users, Username, body.value.username).Some?
      && matches(st.users[FirstWith(st.users, Username, body.value.username).value].password, body.value.password)
    ensures o.reply.status == 500 ==> o.reply.message == "Failed to create session"
    ensures o.reply.status == 200 ==>
      && body.Some? && !findFails && !saveFails
      && FirstWith(st.users, Username, body.value.username).Some?
      && var u := st.users[FirstWith(st.users, Username, body.value.username).value];
         && matches(u.password, body.value.password)
         && o.state == st.(session := Some(u.id))
         && o.reply.user == Some(u.(password := ""))
  {
    match body
    case None => AuthOutcome(st, AuthReply(400, None, "Invalid request body"))
    case Some(b) =>
      if findFails then AuthOutcome(st, AuthReply(401, None, "Invalid credentials"))
      else
        match FirstWith(st.users, Username, b.username)
        case None => AuthOutcome(st, AuthReply(401, None, "Invalid credentials"))
        case Some(i) =>
          var u := st.users[i];
          if !matches(u.password, b.password) then AuthOutcome(st, AuthReply(401, None, "Invalid credentials"))
          else if saveFails then AuthOutcome(st, AuthReply(500, None, "Failed to create session"))
          else AuthOutcome(st.(session := Some(u.id)), AuthReply(200, Some(u.(password := "")), ""))
  }

  /** An unknown name and a wrong password get the same answer, so the
      reply does not reveal which names exist. */
  lemma LoginFailuresIndistinguishable(st: AccountState, unknown: string, known: string, p: string, q: string,
                                       matches: (string, string) -> bool)
    requires FirstWith(st.users, Username, unknown).None?
    requires FirstWith(st.users, Username, known).Some?
    requires !matches(st.users[FirstWith(st.users, Username, known).value].password, q)
    ensures Login(st, Some(LoginBody(unknown, p)), matches, false, false)
         == Login(st, Some(LoginBody(known, q)), matches, false, false)
  {
  }

  /** As written, the password a user registers with is never stored:
      with bcrypt accepting exactly the hashed password, logging in with
      it is refused and logging in with an empty password succeeds. */
  lemma AsWrittenRegisterLosesPassword(hash: string -> string, matches: (string, string) -> bool)
    requires forall p, q :: matches(hash(p), q) <==> p == q
    ensures var r := RegisterAsWritten(AccountState([], None), RegisterBody(None, "alice", "secret", ""), "u1", hash, false, false);
      && r.reply.status == 200
      && Login(r.state, Some(LoginBody("alice", "secret")), matches, false, false).reply.status == 401
      && Login(r.state, Some(LoginBody("alice", "")), matches, false, false).reply.status == 200
  {
    var r := RegisterAsWritten(AccountState([], None), RegisterBody(None, "alice", "secret", ""), "u1", hash, false, false);
    assert r.state.users == [User("u1", "alice", hash(""), "user")];
    assert FirstWith(r.state.users, Username, "alice") == Some(0);
    assert !matches(hash(""), "secret") by {
      assert "" != "secret";
    }
  }

  /** If bcrypt accepts every password against its own hash, a user who
      just registered can log in with the same password and gets the
      session of the account just created. */
  lemma RegisterThenLogin(st: AccountState, name: string, password: string, freshId: string,
                          hash: string -> string, matches: (string, string) -> bool)
    requires forall p :: matches(hash(p), p)
    requires FirstWith(st.users, Username, name).None?
    requires !HasUserId(st.users, freshId)
    ensures var r := Register(st, RegisterBody(None, name, password, ""), freshId, hash, false, false);
      && r.reply.status == 200
      && Login(r.state, Some(LoginBody(name, password)), matches, false, false).state.session == Some(freshId)
  {
    var r := Register(st, RegisterBody(None, name, password, ""), freshId, hash, false, false);
    var users := r.state.users;
    assert users == st.users + [User(freshId, name, hash(password), "user")];
    assert FirstWith(users, Username, name) == Some(|st.users|) by {
      FirstWithAppend(st.users, Username, User(freshId, name, hash(password), "user"));
    }
  }

  /** `logout`: the session loses its user and expires. */
  function Logout(st: AccountState): (o: AuthOutcome)
    ensures o.state.session.None? && o.state.users == st.users
    ensures o.reply.status == 200
  {
    AuthOutcome(st.(session := None), AuthReply(200, None, "Logged out successfully"))
  }
}

=== FILE: go_notifications.dfy ===
/** The Go server's notification handlers over the notifications and users
    collections, the websocket registry and the log of broadcasts.

    The handlers read the session's `userId` as a hex string. The read
    handler converts it to an ObjectId before querying; the update, delete
    and send-to-all handlers put the raw string into their filters. Since
    Mongo compares field values type-strictly, those filters never match a
    record whose `userId` (or a user whose `_id`) is an ObjectId, which is
    how both backends store them. Each of those handlers is modelled as
    written and with the ObjectId conversion the read handler uses. */
module GoNotifications {
  import opened Common
  import opened Notifications
  import opened Store
  import Hub
  import GoAuth
  import Controller

  datatype GoServer = GoServer(
    store: seq<Notification>,
    users: seq<GoAuth.User>,
    hub: set<Hub.Conn>,
    clock: nat,
    sent: seq<Hub.Sent>)

  datatype GoOutcome = GoOutcome(server: GoServer, reply: Controller.Reply)

  /** The fields a JSON body decodes into; a Go zero value where absent.
      `id` is the text of an `_id` the client chose to send and `userId`
      the text of its `userId` (empty when absent): both decode to
      ObjectIds. */
  datatype GoBody = GoBody(
    id: Option<string>,
    title: string,
    message: string,
    category: string,
    read: bool,
    timestamp: nat,
    userId: string)

  /** Decoding an ObjectId field succeeds when the text is empty (the zero
      id) or an ObjectId text, and fails otherwise. */
  predicate DecodesAsObjectId(text: string)
  {
    text == "" || IsObjectIdHex(text)
  }

  /** The body decodes without error. */
  predicate Decodes(body: GoBody)
  {
    && (body.id.None? || DecodesAsObjectId(body.id.value))
    && DecodesAsObjectId(body.userId)
  }

  /** The ObjectId in the body's `_id` field: the zero id when it is absent,
      empty or undecodable. The zero id is what `omitempty` drops from an
      inserted document, so the driver generates one then. */
  function BodyId(body: GoBody): (r: string)
    ensures IsObjectIdHex(r)
    ensures body.id.Some? && IsObjectIdHex(body.id.value) ==> r == body.id.value
    ensures body.id.None? || body.id.value == "" ==> r == NilObjectId
  {
    DecodedObjectId(body.id)
  }

  /** `primitive.ObjectIDFromHex(userID)` with its error dropped, as the
      value of a `userId` field. */
  function SessionOwner(u: string): (r: UserRef)
    ensures r.ObjectId? && IsObjectIdHex(r.hex)
  {
    ObjectId(ParseObjectId(u))
  }

  /** The raw session string as a filter value, as the update, delete and
      send-to-all handlers use it. */
  function RawOwner(u: string): (r: UserRef)
    ensures !r.ObjectId?
  {
    Text(u)
  }

  /** Every stored record's owner is an ObjectId, as both backends write
      them. */
  predicate OwnersAreObjectIds(store: seq<Notification>)
  {
    forall x :: x in store ==> x.userId.ObjectId?
  }

  /** One broadcast of `msg`, dropping the clients in `fails`. */
  function Push(s: GoServer, fails: set<Hub.Conn>, msg: Hub.WsMessage): (r: GoServer)
    ensures r.store == s.store && r.users == s.users && r.clock == s.clock
    ensures r.sent == s.sent + [Hub.Sent(msg, s.hub, s.hub * fails)]
    ensures r.hub == s.hub - fails
  {
    var (hub, record) := Hub.Broadcast(s.hub, fails, msg);
    s.(hub := hub, sent := s.sent + [record])
  }

  /** No broadcast happened between two states. */
  predicate Silent(s: GoServer, t: GoServer)
  {
    t.sent == s.sent && t.hub == s.hub
  }

  function Unauthorized(s: GoServer): (o: GoOutcome)
    ensures o.server == s && o.reply.status == 401
  {
    GoOutcome(s, Controller.Reply(401, Controller.Note("Unauthorized")))
  }

  /** `getNotifications`: the session user's records, newest first. */
  function Get(s: GoServer, session: Option<string>, dbFails: bool): (o: GoOutcome)
    ensures o.server == s
    ensures o.reply.status == 401 <==> session.None?
    ensures o.reply.status == 500 <==> session.Some? && dbFails
    ensures o.reply.status == 200 ==>
      && session.Some?
      && o.reply.body.Docs?
      && o.reply.body.docs == Load(s.store, SessionOwner(session.value))
      && SortedNewestFirst(o.reply.body.docs)
      && multiset(o.reply.body.docs) == multiset(OwnedBy(s.store, SessionOwner(session.value)))
      && forall x :: x in o.reply.body.docs <==> x in s.store && x.userId == SessionOwner(session.value)
  {
    match session
    case None => Unauthorized(s)
    case Some(u) =>
      if dbFails then GoOutcome(s, Controller.Reply(500, Controller.Note("query failed")))
      else GoOutcome(s, Controller.Reply(200, Controller.Docs(Load(s.store, SessionOwner(u)))))
  }

  /** The record `addNotification` inserts: the body's text fields, with
      the timestamp, the read flag and the owner overwritten. Its id is the
      body's `_id` unless that is the zero id, in which case `freshId` is
      the id the driver generates. */
  function Stamp(body: GoBody, u: string, now: nat, freshId: string): (n: Notification)
    ensures n.timestamp == now && !n.read && n.userId == SessionOwner(u)
    ensures n.title == body.title && n.message == body.message && n.category == body.category
    ensures BodyId(body) == NilObjectId ==> n.id == freshId
    ensures BodyId(body) != NilObjectId ==> n.id == BodyId(body)
  {
    Notification(InsertedId(BodyId(body), freshId), SessionOwner(u), body.title, body.message, body.category, false, now)
  }

  /** `addNotification`. The insert fails on a driver error or a taken
      `_id`; nothing is broadcast then. */
  function Add(s: GoServer, session: Option<string>, body: GoBody, freshId: string,
               dbFails: bool, fails: set<Hub.Conn>): (o: GoOutcome)
    ensures o.reply.status in {200, 401, 500}
    ensures o.reply.status == 401 <==> session.None?
    ensures o.reply.status != 200 ==> o.server == s
    ensures o.reply.status == 200 <==>
      session.Some? && !dbFails && !HasId(s.store, Stamp(body, session.value, s.clock, freshId).id)
    ensures o.reply.status == 200 ==>
      var n := Stamp(body, session.value, s.clock, freshId);
      && o.server.store == s.store + [n]
      && o.reply.body == Controller.Doc(n)
      && o.server.sent == s.sent + [Hub.Sent(Hub.NotificationMsg(n), s.hub, s.hub * fails)]
  {
    match session
    case None => Unauthorized(s)
    case Some(u) =>
      var n := Stamp(body, u, s.clock, freshId);
      if dbFails || HasId(s.store, n.id) then GoOutcome(s, Controller.Reply(500, Controller.Note("insert failed")))
      else GoOutcome(Push(s.(store := s.store + [n]), fails, Hub.NotificationMsg(n)), Controller.Reply(200, Controller.Doc(n)))
  }

  /** A record the add stored is among what its owner's next read
      returns. */
  lemma AddThenGetShowsRecord(s: GoServer, u: string, body: GoBody, freshId: string, fails: set<Hub.Conn>)
    requires Add(s, Some(u), body, freshId, false, fails).reply.status == 200
    ensures var g := Get(Add(s, Some(u), body, freshId, false, fails).server, Some(u), false);
      && g.reply.status == 200
      && Stamp(body, u, s.clock, freshId) in g.reply.body.docs
  {
    var n := Stamp(body, u, s.clock, freshId);
    var a := Add(s, Some(u), body, freshId, false, fails);
    assert a.server.store[|s.store|] == n;
  }

  /** Whatever `read`, `timestamp` and `userId` the body carries, the add
      stores and broadcasts the same record. */
  lemma AddOverridesBody(s: GoServer, session: Option<string>, body: GoBody, read: bool, timestamp: nat, forged: string,
                         freshId: string, dbFails: bool, fails: set<Hub.Conn>)
    ensures Add(s, session, body.(read := read, timestamp := timestamp, userId := forged), freshId, dbFails, fails)
         == Add(s, session, body, freshId, dbFails, fails)
  {
  }

  /** The Go add runs no validation: a record the TypeScript schema would
      reject (empty title, unknown category) is stored. */
  lemma AddStoresWhatSchemaRejects(u: string)
    ensures var o := Add(GoServer([], [], {}, 0, []), Some(u), GoBody(None, "", "", "urgent", false, 0, ""), "id1", false, {});
      o.reply.status == 200 && |o.server.store| == 1 && !SchemaValid(o.server.store[0])
  {
  }

  /** The update flow of `markNotification` with the owner value its
      filter uses. A failed decode of the result (no match or a driver
      error) is a 404. */
  function MarkMatching(s: GoServer, owner: UserRef, pathId: string, read: bool,
                        dbFails: bool, fails: set<Hub.Conn>): (o: GoOutcome)
    ensures o.reply.status in {200, 404}
    ensures o.reply.status == 404 <==> dbFails || FindOwned(s.store, ParseObjectId(pathId), owner).None?
    ensures o.reply.status == 404 ==> o.server == s
    ensures o.reply.status == 200 ==>
      var i := FindOwned(s.store, ParseObjectId(pathId), owner).value;
      var n := s.store[i].(read := read);
      && o.server.store == s.store[i := n]
      && o.reply.body == Controller.Doc(n)
      && o.server.sent == s.sent + [Hub.Sent(Hub.NotificationMsg(n), s.hub, s.hub * fails)]
  {
    var id := ParseObjectId(pathId);
    if dbFails then GoOutcome(s, Controller.Reply(404, Controller.Note("Notification not found")))
    else
      match FindOwned(s.store, id, owner)
      case None => GoOutcome(s, Controller.Reply(404, Controller.Note("Notification not found")))
      case Some(i) =>
        var n := s.store[i].(read := read);
        GoOutcome(Push(s.(store := s.store[i := n]), fails, Hub.NotificationMsg(n)), Controller.Reply(200, Controller.Doc(n)))
  }

  /** A mark changes the `read` field of one record and nothing else. */
  lemma MarkChangesOnlyRead(s: GoServer, owner: UserRef, pathId: string, read: bool, dbFails: bool, fails: set<Hub.Conn>)
    requires MarkMatching(s, owner, pathId, read, dbFails, fails).reply.status == 200
    ensures var t := MarkMatching(s, owner, pathId, read, dbFails, fails).server.store;
      && |t| == |s.store|
      && exists i :: 0 <= i < |s.store| && t[i] == s.store[i].(read := read) && s.store[i].userId == owner
                    && forall k :: 0 <= k < |s.store| && k != i ==> t[k] == s.store[k]
  {
    var i := FindOwned(s.store, ParseObjectId(pathId), owner).value;
    assert MarkMatching(s, owner, pathId, read, dbFails, fails).server.store[i] == s.store[i].(read := read);
  }

  /** `markNotification` as written: the filter holds the raw session
      string. */
  function MarkAsWritten(s: GoServer, session: Option<string>, pathId: string, read: bool,
                         dbFails: bool, fails: set<Hub.Conn>): (o: GoOutcome)
    ensures session.None? ==> o.reply.status == 401 && o.server == s
    ensures session.Some? ==> o == MarkMatching(s, RawOwner(session.value), pathId, read, dbFails, fails)
  {
    match session
    case None => Unauthorized(s)
    case Some(u) => MarkMatching(s, RawOwner(u), pathId, read, dbFails, fails)
  }

  /** `markNotification` filtering on the session user's ObjectId. */
  function Mark(s: GoServer, session: Option<string>, pathId: string, read: bool,
                dbFails: bool, fails: set<Hub.Conn>): (o: GoOutcome)
    ensures session.None? ==> o.reply.status == 401 && o.server == s
    ensures session.Some? ==> o == MarkMatching(s, SessionOwner(session.value), pathId, read, dbFails, fails)
  {
    match session
    case None => Unauthorized(s)
    case Some(u) => MarkMatching(s, SessionOwner(u), pathId, read, dbFails, fails)
  }

  /** As written, no update ever succeeds: on a store whose owners are
      ObjectIds every request ends in 401 or 404 and changes nothing. */
  lemma AsWrittenMarkNeverMatches(s: GoServer, session: Option<string>, pathId: string, read: bool,
                                  dbFails: bool, fails: set<Hub.Conn>)
    requires OwnersAreObjectIds(s.store)
    ensures MarkAsWritten(s, session, pathId, read, dbFails, fails).reply.status in {401, 404}
    ensures MarkAsWritten(s, session, pathId, read, dbFails, fails).server == s
  {
  }

  /** With the conversion, the owner can mark a record it added. */
  lemma MarkFindsOwnRecord(s: GoServer, u: string, body: GoBody, freshId: string, read: bool)
    requires !HasId(s.store, Stamp(body, u, s.clock, freshId).id)
    requires IsObjectIdHex(Stamp(body, u, s.clock, freshId).id)
    ensures var a := Add(s, Some(u), body, freshId, false, {});
      Mark(a.server, Some(u), Stamp(body, u, s.clock, freshId).id, read, false, {}).reply.status == 200
  {
    var a := Add(s, Some(u), body, freshId, false, {});
    var n := Stamp(body, u, s.clock, freshId);
    assert a.server.store[|s.store|] == n;
  }

  /** The delete flow of `deleteNotification` with the owner value its
      filter uses: 500 on a driver error, 404 when nothing was deleted,
      otherwise one deletion broadcast carrying the id. */
  function DeleteMatching(s: GoServer, owner: UserRef, pathId: string,
                          dbFails: bool, fails: set<Hub.Conn>): (o: GoOutcome)
    ensures o.reply.status in {200, 404, 500}
    ensures o.reply.status == 500 <==> dbFails
    ensures o.reply.status == 404 <==> !dbFails && FindOwned(s.store, ParseObjectId(pathId), owner).None?
    ensures o.reply.status != 200 ==> o.server == s
    ensures o.reply.status == 200 ==>
      var i := FindOwned(s.store, ParseObjectId(pathId), owner).value;
      && o.server.store == s.store[..i] + s.store[i+1..]
      && o.server.sent == s.sent + [Hub.Sent(Hub.DeletionMsg(ParseObjectId(pathId)), s.hub, s.hub * fails)]
  {
    var id := ParseObjectId(pathId);
    if dbFails then GoOutcome(s, Controller.Reply(500, Controller.Note("delete failed")))
    else
      match FindOwned(s.store, id, owner)
      case None => GoOutcome(s, Controller.Reply(404, Controller.Note("Notification not found")))
      case Some(i) =>
        GoOutcome(Push(s.(store := s.store[..i] + s.store[i+1..]), fails, Hub.DeletionMsg(id)),
                  Controller.Reply(200, Controller.Note("Notification deleted")))
  }

  /** `deleteNotification` as written: the filter holds the raw session
      string. */
  function DeleteAsWritten(s: GoServer, session: Option<string>, pathId: string,
                           dbFails: bool, fails: set<Hub.Conn>): (o: GoOutcome)
    ensures session.None? ==> o.reply.status == 401 && o.server == s
    ensures session.Some? ==> o == DeleteMatching(s, RawOwner(session.value), pathId, dbFails, fails)
  {
    match session
    case None => Unauthorized(s)
    case Some(u) => DeleteMatching(s, RawOwner(u), pathId, dbFails, fails)
  }

  /** `deleteNotification` filtering on the session user's ObjectId. */
  function Delete(s: GoServer, session: Option<string>, pathId: string,
                  dbFails: bool, fails: set<Hub.Conn>): (o: GoOutcome)
    ensures session.None? ==> o.reply.status == 401 && o.server == s
    ensures session.Some? ==> o == DeleteMatching(s, SessionOwner(session.value), pathId, dbFails, fails)
  {
    match session
    case None => Unauthorized(s)
    case Some(u) => DeleteMatching(s, SessionOwner(u), pathId, dbFails, fails)
  }

  /** As written, no delete ever succeeds on a store whose owners are
      ObjectIds. */
  lemma AsWrittenDeleteNeverMatches(s: GoServer, session: Option<string>, pathId: string,
                                    dbFails: bool, fails: set<Hub.Conn>)
    requires OwnersAreObjectIds(s.store)
    ensures DeleteAsWritten(s, session, pathId, dbFails, fails).reply.status in {401, 404, 500}
    ensures DeleteAsWritten(s, session, pathId, dbFails, fails).server == s
  {
  }

  /** With the conversion, a successful delete removes exactly the
      matched record: with unique ids, every other record stays. */
  lemma DeleteRemovesOnlyTarget(s: GoServer, u: string, pathId: string, fails: set<Hub.Conn>)
    requires IdsUnique(s.store)
    requires Delete(s, Some(u), pathId, false, fails).reply.status == 200
    ensures var t := Delete(s, Some(u), pathId, false, fails).server.store;
      && IdsUnique(t)
      && forall x :: x in t <==> x in s.store && x.id != ParseObjectId(pathId)
  {
    var i := FindOwned(s.store, ParseObjectId(pathId), SessionOwner(u)).value;
    RemoveMembership(s.store, i);
  }

  /** The first user whose `_id` equals `ref`. Users' ids are ObjectIds. */
  function FindUser(users: seq<GoAuth.User>, ref: UserRef): (r: Option<nat>)
    ensures r.Some? ==> r.value < |users| && ObjectId(users[r.value].id) == ref
    ensures r.None? ==> forall j :: 0 <= j < |users| ==> ObjectId(users[j].id) != ref
  {
    if |users| == 0 then None
    else if ObjectId(users[0].id) == ref then Some(0)
    else
      match FindUser(users[1..], ref)
      case None => None
      case Some(k) => Some(k + 1)
  }

  /** The per-user copies of the admin's notification, in the order the
      users were listed. */
  function Copies(users: seq<GoAuth.User>, base: Notification, newId: nat -> string, from: nat): (r: seq<Notification>)
    ensures |r| == |users|
    ensures forall k :: 0 <= k < |users| ==>
      r[k] == base.(userId := ObjectId(users[k].id), id := if base.id == NilObjectId then newId(from + k) else base.id)
    decreases |users|
  {
    if |users| == 0 then []
    else
      [base.(userId := ObjectId(users[0].id), id := if base.id == NilObjectId then newId(from) else base.id)]
      + Copies(users[1..], base, newId, from + 1)
  }

  /** Environment choices for one send-to-all request. `insertStopsAt`
      is the index of a document whose insert fails for a reason other
      than a duplicate `_id` (a driver or network error), if any. */
  datatype SendFaults = SendFaults(lookupFails: bool, usersFail: bool, insertStopsAt: Option<nat>)

  /** Copy `k` cannot be inserted: its `_id` is already stored or was
      given to an earlier copy. */
  predicate Clashes(store: seq<Notification>, docs: seq<Notification>, k: nat)
    requires k < |docs|
  {
    HasId(store, docs[k].id) || HasId(docs[..k], docs[k].id)
  }

  /** The first copy at or after `from` whose insert hits a duplicate key,
      or `|docs|` when none does. */
  function FirstClash(store: seq<Notification>, docs: seq<Notification>, from: nat): (r: nat)
    requires from <= |docs|
    ensures from <= r <= |docs|
    ensures forall k :: from <= k < r ==> !Clashes(store, docs, k)
    ensures r < |docs| ==> Clashes(store, docs, r)
    decreases |docs| - from
  {
    if from == |docs| then |docs|
    else if Clashes(store, docs, from) then from
    else FirstClash(store, docs, from + 1)
  }

  /** Inserting copies in order up to the first clash keeps ids unique. */
  lemma {:induction false} CleanPrefixUnique(store: seq<Notification>, docs: seq<Notification>, k: nat)
    requires k <= |docs|
    requires forall j :: 0 <= j < k ==> !Clashes(store, docs, j)
    ensures IdsUnique(store) ==> IdsUnique(store + docs[..k])
    decreases k
  {
    if k > 0 && IdsUnique(store) {
      CleanPrefixUnique(store, docs, k - 1);
      var x := docs[k - 1];
      assert !Clashes(store, docs, k - 1);
      var t := store + docs[..k - 1];
      forall i | 0 <= i < |t|
        ensures t[i].id != x.id
      {
        if i < |store| {
          assert t[i] == store[i];
        } else {
          assert t[i] == docs[..k - 1][i - |store|];
        }
      }
      UniqueSnoc(t, x);
      assert store + docs[..k] == (store + docs[..k - 1]) + [x];
    }
  }

  /** The admin lookup succeeded and found an admin. */
  predicate Admitted(s: GoServer, adminRef: UserRef, f: SendFaults)
  {
    && !f.lookupFails
    && FindUser(s.users, adminRef).Some?
    && s.users[FindUser(s.users, adminRef).value].role == "admin"
  }

  /** The send-to-all flow with the value its admin lookup filters on.
      InsertMany is ordered: it stops at the first copy whose `_id` is
      taken, or at `f.insertStopsAt`, and the copies before it stay
      stored. */
  function SendToAllMatching(s: GoServer, u: string, adminRef: UserRef, body: Option<GoBody>,
                             newId: nat -> string, f: SendFaults, fails: set<Hub.Conn>): (o: GoOutcome)
    ensures o.reply.status in {200, 400, 401, 500}
    ensures o.reply.status == 401 <==> !Admitted(s, adminRef, f)
    ensures o.reply.status == 400 <==> Admitted(s, adminRef, f) && (body.None? || !Decodes(body.value))
    ensures o.reply.status != 200 ==> Silent(s, o.server) && o.server.users == s.users
    ensures o.reply.status in {400, 401} ==> o.server == s
    ensures IdsUnique(s.store) ==> IdsUnique(o.server.store)
    ensures o.reply.status == 500 ==>
      (body.Some? &&
       exists k :: 0 <= k < |s.users| && o.server.store == s.store + Copies(s.users, Base(body.value, s.clock), newId, 0)[..k])
    ensures o.reply.status == 200 <==>
      && Admitted(s, adminRef, f)
      && body.Some? && Decodes(body.value)
      && !f.usersFail
      && FirstClash(s.store, Copies(s.users, Base(body.value, s.clock), newId, 0), 0) == |s.users|
      && (f.insertStopsAt.None? || f.insertStopsAt.value >= |s.users|)
    ensures o.reply.status == 200 ==>
      && body.Some?
      && o.server.store == s.store + Copies(s.users, Base(body.value, s.clock), newId, 0)
      && o.server.sent == s.sent + [Hub.Sent(Hub.NewNotificationMsg(Base(body.value, s.clock)), s.hub, s.hub * fails)]
  {
    if f.lookupFails then Unauthorized(s)
    else
      match FindUser(s.users, adminRef)
      case None => Unauthorized(s)
      case Some(i) =>
        if s.users[i].role != "admin" then Unauthorized(s)
        else
          match body
          case None => GoOutcome(s, Controller.Reply(400, Controller.Note("Invalid request body")))
          case Some(b) =>
            if !Decodes(b) then GoOutcome(s, Controller.Reply(400, Controller.Note("Invalid request body")))
            else if f.usersFail then
              assert s.store + Copies(s.users, Base(b, s.clock), newId, 0)[..0] == s.store;
              GoOutcome(s, Controller.Reply(500, Controller.Note("Error fetching users")))
            else
              var base := Base(b, s.clock);
              var docs := Copies(s.users, base, newId, 0);
              var clash := FirstClash(s.store, docs, 0);
              var stop := if f.insertStopsAt.Some? && f.insertStopsAt.value < clash then f.insertStopsAt.value else clash;
              CleanPrefixUnique(s.store, docs, stop);
              if stop < |docs| then
                GoOutcome(s.(store := s.store + docs[..stop]),
                          Controller.Reply(500, Controller.Note("Error sending notifications")))
              else
                assert docs[..|docs|] == docs;
                GoOutcome(Push(s.(store := s.store + docs), fails, Hub.NewNotificationMsg(base)),
                          Controller.Reply(200, Controller.Note("Notification sent to all users")))
  }

  /** The decoded body with the timestamp and the read flag overwritten:
      its owner is the body's `userId` (the zero id when absent) and its id
      the body's `_id` (the zero id when absent). This is also what the
      broadcast carries. */
  function Base(body: GoBody, now: nat): (n: Notification)
    ensures n.timestamp == now && !n.read
    ensures n.userId == ObjectId(ParseObjectId(body.userId))
    ensures Decodes(body) && body.userId != "" ==> n.userId == ObjectId(body.userId)
    ensures body.userId == "" ==> n.userId == ObjectId(NilObjectId)
    ensures n.id == BodyId(body)
    ensures n.title == body.title && n.message == body.message && n.category == body.category
  {
    Notification(BodyId(body), ObjectId(ParseObjectId(body.userId)), body.title, body.message, body.category, false, now)
  }

  /** `sendNotificationToAllUsers` as written: the admin lookup filters
      `_id` on the raw session string. */
  function SendToAllAsWritten(s: GoServer, session: Option<string>, body: Option<GoBody>,
                              newId: nat -> string, f: SendFaults, fails: set<Hub.Conn>): (o: GoOutcome)
    ensures session.None? ==> o.reply.status == 401 && o.server == s
    ensures session.Some? ==> o == SendToAllMatching(s, session.value, RawOwner(session.value), body, newId, f, fails)
  {
    match session
    case None => Unauthorized(s)
    case Some(u) => SendToAllMatching(s, u, RawOwner(u), body, newId, f, fails)
  }

  /** `sendNotificationToAllUsers` looking the admin up by ObjectId. */
  function SendToAll(s: GoServer, session: Option<string>, body: Option<GoBody>,
                     newId: nat -> string, f: SendFaults, fails: set<Hub.Conn>): (o: GoOutcome)
    ensures session.None? ==> o.reply.status == 401 && o.server == s
    ensures session.Some? ==> o == SendToAllMatching(s, session.value, SessionOwner(session.value), body, newId, f, fails)
  {
    match session
    case None => Unauthorized(s)
    case Some(u) => SendToAllMatching(s, u, SessionOwner(u), body, newId, f, fails)
  }

  /** As written, every send-to-all request is refused with 401 and
      changes nothing, admins included. */
  lemma AsWrittenSendToAllAlwaysUnauthorized(s: GoServer, session: Option<string>, body: Option<GoBody>,
                                             newId: nat -> string, f: SendFaults, fails: set<Hub.Conn>)
    ensures SendToAllAsWritten(s, session, body, newId, f, fails).reply.status == 401
    ensures SendToAllAsWritten(s, session, body, newId, f, fails).server == s
  {
  }

  /** With the lookup by ObjectId, an admin's request whose body decodes
      and names no `_id` reaches every user, provided the driver's
      generated ids are distinct and not yet stored: one copy per user, in
      user order, each with its generated id, owned by that user and
      unread, all sharing title, message, category and timestamp. */
  lemma SendToAllReachesEveryUser(s: GoServer, i: nat, body: GoBody, newId: nat -> string, fails: set<Hub.Conn>)
    requires i < |s.users| && s.users[i].role == "admin" && IsObjectIdHex(s.users[i].id)
    requires forall j :: 0 <= j < i ==> s.users[j].id != s.users[i].id
    requires Decodes(body) && BodyId(body) == NilObjectId
    requires forall k :: 0 <= k < |s.users| ==> !HasId(s.store, newId(k))
    requires forall j, k :: 0 <= j < k < |s.users| ==> newId(j) != newId(k)
    ensures var o := SendToAll(s, Some(s.users[i].id), Some(body), newId, SendFaults(false, false, None), fails);
      && o.reply.status == 200
      && |o.server.store| == |s.store| + |s.users|
      && o.server.store[..|s.store|] == s.store
      && forall k :: 0 <= k < |s.users| ==>
           var c := o.server.store[|s.store| + k];
           && c.id == newId(k)
           && c.userId == ObjectId(s.users[k].id)
           && !c.read && c.timestamp == s.clock
           && c.title == body.title && c.message == body.message && c.category == body.category
  {
    SendToAllStoresCopies(s, i, body, newId, fails);
    var o := SendToAll(s, Some(s.users[i].id), Some(body), newId, SendFaults(false, false, None), fails);
    var docs := Copies(s.users, Base(body, s.clock), newId, 0);
    FreshCopiesAreStamped(s, body, newId);
    forall k | 0 <= k < |s.users|
      ensures o.server.store[|s.store| + k] == docs[k]
    {
    }
  }

  /** The copies of a body without an `_id`: copy k carries the k-th
      generated id, the k-th user and the body's fields. */
  lemma FreshCopiesAreStamped(s: GoServer, body: GoBody, newId: nat -> string)
    requires BodyId(body) == NilObjectId
    ensures var docs := Copies(s.users, Base(body, s.clock), newId, 0);
      forall k :: 0 <= k < |s.users| ==>
        && docs[k].id == newId(k)
        && docs[k].userId == ObjectId(s.users[k].id)
        && !docs[k].read && docs[k].timestamp == s.clock
        && docs[k].title == body.title && docs[k].message == body.message && docs[k].category == body.category
  {
  }

  /** The store half of the previous lemma: the request succeeds and
      appends the copies. */
  lemma SendToAllStoresCopies(s: GoServer, i: nat, body: GoBody, newId: nat -> string, fails: set<Hub.Conn>)
    requires i < |s.users| && s.users[i].role == "admin" && IsObjectIdHex(s.users[i].id)
    requires forall j :: 0 <= j < i ==> s.users[j].id != s.users[i].id
    requires Decodes(body) && BodyId(body) == NilObjectId
    requires forall k :: 0 <= k < |s.users| ==> !HasId(s.store, newId(k))
    requires forall j, k :: 0 <= j < k < |s.users| ==> newId(j) != newId(k)
    ensures var o := SendToAll(s, Some(s.users[i].id), Some(body), newId, SendFaults(false, false, None), fails);
      && o.reply.status == 200
      && o.server.store == s.store + Copies(s.users, Base(body, s.clock), newId, 0)
  {
    var u := s.users[i].id;
    assert SessionOwner(u) == ObjectId(u);
    FindUserFirst(s.users, ObjectId(u), i);
    assert FindUser(s.users, ObjectId(u)) == Some(i);
    FreshCopiesNeverClash(s.store, s.users, Base(body, s.clock), newId);
    assert Admitted(s, ObjectId(u), SendFaults(false, false, None));
  }

  /** Copies that take distinct generated ids, none of them stored, are
      all inserted. */
  lemma FreshCopiesNeverClash(store: seq<Notification>, users: seq<GoAuth.User>, base: Notification, newId: nat -> string)
    requires base.id == NilObjectId
    requires forall k :: 0 <= k < |users| ==> !HasId(store, newId(k))
    requires forall j, k :: 0 <= j < k < |users| ==> newId(j) != newId(k)
    ensures FirstClash(store, Copies(users, base, newId, 0), 0) == |users|
  {
    var docs := Copies(users, base, newId, 0);
    forall k | 0 <= k < |docs|
      ensures !Clashes(store, docs, k)
    {
      assert docs[k].id == newId(k);
      forall j | 0 <= j < k
        ensures docs[..k][j].id != docs[k].id
      {
        assert docs[..k][j] == docs[j];
      }
    }
  }

  /** A body `_id` is given to every copy, so with two users or more the
      ordered insert hits a duplicate key by the second copy: the request
      answers 500, broadcasts nothing and stores at most one copy. */
  lemma SendWithBodyIdFails(s: GoServer, i: nat, body: GoBody, newId: nat -> string, fails: set<Hub.Conn>)
    requires i < |s.users| && s.users[i].role == "admin" && IsObjectIdHex(s.users[i].id)
    requires forall j :: 0 <= j < i ==> s.users[j].id != s.users[i].id
    requires Decodes(body) && BodyId(body) != NilObjectId
    requires |s.users| >= 2
    ensures var o := SendToAll(s, Some(s.users[i].id), Some(body), newId, SendFaults(false, false, None), fails);
      && o.reply.status == 500
      && Silent(s, o.server)
      && |o.server.store| <= |s.store| + 1
  {
    var u := s.users[i].id;
    assert SessionOwner(u) == ObjectId(u);
    FindUserFirst(s.users, ObjectId(u), i);
    assert FindUser(s.users, ObjectId(u)) == Some(i);
    var docs := Copies(s.users, Base(body, s.clock), newId, 0);
    assert docs[1].id == docs[0].id;
    assert docs[..1][0] == docs[0];
    assert Clashes(s.store, docs, 1);
    assert FirstClash(s.store, docs, 0) <= 1;
  }

  lemma {:induction false} FindUserFirst(users: seq<GoAuth.User>, ref: UserRef, i: nat)
    requires i < |users| && ObjectId(users[i].id) == ref
    ensures FindUser(users, ref).Some? && FindUser(users, ref).value <= i
    decreases i
  {
    if i > 0 && ObjectId(users[0].id) != ref {
      FindUserFirst(users[1..], ref, i - 1);
    }
  }

  /** A refused or failed send-to-all broadcasts nothing, even when part
      of the copies were stored. */
  lemma FailedSendBroadcastsNothing(s: GoServer, session: Option<string>, body: Option<GoBody>,
                                    newId: nat -> string, f: SendFaults, fails: set<Hub.Conn>)
    requires SendToAll(s, session, body, newId, f, fails).reply.status != 200
    ensures Silent(s, SendToAll(s, session, body, newId, f, fails).server)
  {
  }
}

=== FILE: hub.dfy ===
/** The Go server's websocket registry: the set of open connections, the
    connect and disconnect of the connection handler, and the broadcasts
    that write one JSON message to every registered client, closing and
    dropping each client whose write fails. Every operation holds the
    registry lock for its whole run, so each is one atomic step here. */
module Hub {
  import opened Notifications

  /** A connection, identified by its registry key (a `*websocket.Conn` in Go). */
  type Conn = nat

  /** The payloads the Go server writes, by their `type` field. */
  datatype WsMessage =
    | NotificationMsg(n: Notification)
    | DeletionMsg(id: string)
    | NewNotificationMsg(n: Notification)

  function TypeField(m: WsMessage): (t: string)
    ensures t == "notification" <==> m.NotificationMsg?
    ensures t == "deletion" <==> m.DeletionMsg?
    ensures t == "newNotification" <==> m.NewNotificationMsg?
  {
    match m
    case NotificationMsg(_) => "notification"
    case DeletionMsg(_) => "deletion"
    case NewNotificationMsg(_) => "newNotification"
  }

  /** The record of one broadcast: what was sent, to whom it was written
      and whose write failed. */
  datatype Sent = Sent(msg: WsMessage, attempted: set<Conn>, failed: set<Conn>)

  /** A new connection is registered. */
  function Connect(hub: set<Conn>, c: Conn): (r: set<Conn>)
    ensures c in r
    ensures forall d :: d != c ==> (d in r <==> d in hub)
  {
    hub + {c}
  }

  /** A read error unregisters exactly that connection. */
  function Disconnect(hub: set<Conn>, c: Conn): (r: set<Conn>)
    ensures c !in r
    ensures forall d :: d != c ==> (d in r <==> d in hub)
  {
    hub - {c}
  }

  lemma DisconnectUndoesConnect(hub: set<Conn>, c: Conn)
    requires c !in hub
    ensures Disconnect(Connect(hub, c), c) == hub
  {
  }

  /** The outcome of one broadcast when the writes to `fails` fail: every
      client registered at the start is written to, and the failing ones
      are dropped. */
  function Broadcast(hub: set<Conn>, fails: set<Conn>, msg: WsMessage): (r: (set<Conn>, Sent))
    ensures r.0 <= hub
    ensures forall c :: c in hub ==> (c in r.0 <==> c !in fails)
    ensures r.1.msg == msg && r.1.attempted == hub
    ensures forall c :: c in r.1.failed <==> c in hub && c in fails
  {
    (hub - fails, Sent(msg, hub, hub * fails))
  }

  /** A broadcast never registers anyone, and the clients it keeps are
      exactly the ones it reached. */
  lemma BroadcastOnlyShrinks(hub: set<Conn>, fails: set<Conn>, msg: WsMessage)
    ensures var (after, sent) := Broadcast(hub, fails, msg);
      && after <= hub
      && after == sent.attempted - sent.failed
      && |after| <= |hub|
  {
    var (after, sent) := Broadcast(hub, fails, msg);
    assert after == sent.attempted - sent.failed;
    assert after <= hub;
    SubsetCard(after, hub);
  }

  lemma {:induction false} SubsetCard(a: set<Conn>, b: set<Conn>)
    requires a <= b
    ensures |a| <= |b|
    decreases |b|
  {
    if a != {} {
      var x :| x in a;
      SubsetCard(a - {x}, b - {x});
    }
  }

  /** The `for client := range clients` loop: writes the message to each
      client registered at the start exactly once, in some order, and
      deletes a client from the registry when its write fails. */
  method BroadcastLoop(hub: set<Conn>, fails: set<Conn>, msg: WsMessage) returns (registry: set<Conn>, order: seq<Conn>)
    ensures registry == Broadcast(hub, fails, msg).0
    ensures forall c :: c in order <==> c in hub
    ensures forall i, j :: 0 <= i < j < |order| ==> order[i] != order[j]
    ensures |order| == |hub|
  {
    registry := hub;
    order := [];
    var remaining := hub;
    while remaining != {}
      invariant remaining <= hub
      invariant forall c :: c in order <==> c in hub && c !in remaining
      invariant forall i, j :: 0 <= i < j < |order| ==> order[i] != order[j]
      invariant |order| + |remaining| == |hub|
      invariant forall c :: c in registry <==> c in hub && (c in remaining || c !in fails)
      decreases |remaining|
    {
      var c :| c in remaining;
      order := order + [c];
      if c in fails {
        registry := registry - {c};
      }
      remaining := remaining - {c};
    }
  }
}

=== FILE: notification.dfy ===
/** The Notification record shared by both backends and the dashboard, the
    Mongoose schema that guards it (required fields, the category enum and
    the defaults for `read` and `timestamp`), and the change events the
    server pushes to connected clients. */
module Notifications {
  import opened Common

  /** The BSON value stored in a record's `userId` field. Mongo compares
      field values type-strictly, so an ObjectId never equals a string that
      spells the same hex digits. */
  datatype UserRef = ObjectId(hex: string) | Text(s: string)

  datatype Notification = Notification(
    id: string,
    userId: UserRef,
    title: string,
    message: string,
    category: string,
    read: bool,
    timestamp: nat)

  const Categories: seq<string> := ["info", "alert", "message"]

  predicate ValidCategory(c: string)
  {
    c in Categories
  }

  /** What the schema demands of a stored record: a non-empty title and
      message, a category from the enum, and an ObjectId owner. */
  predicate SchemaValid(n: Notification)
  {
    && n.title != ""
    && n.message != ""
    && ValidCategory(n.category)
    && n.userId.ObjectId?
  }

  /** The JSON body of a create request, field by field. */
  datatype NotificationBody = NotificationBody(
    id: Json,
    title: Json,
    message: Json,
    category: Json,
    read: Json,
    timestamp: Json,
    userId: Json)

  /** Outcome of casting one body field to a schema type. */
  datatype Cast<+T> = Absent | Value(v: T) | CastError

  /** Mongoose's String cast: scalars become their text, `null` and
      `undefined` leave the path unset. */
  function CastString(v: Json): (r: Cast<string>)
    ensures !r.CastError?
    ensures r.Absent? <==> v.Missing? || v.Null?
    ensures r.Value? ==> r.v == ValidatorText(v)
  {
    match v
    case Missing => Absent
    case Null => Absent
    case Bool(b) => Value(if b then "true" else "false")
    case Num(n) => Value(DecimalString(n))
    case Str(s) => Value(s)
  }

  /** Mongoose's Boolean cast: `true`, `"true"`, `1`, `"1"`, `"yes"` and
      their false counterparts; anything else is a cast error. */
  function CastBoolean(v: Json): (r: Cast<bool>)
    ensures r.Absent? <==> v.Missing? || v.Null?
    ensures v.Bool? ==> r == Value(v.b)
    ensures r.Value? && r.v ==> ValidatorText(v) in ["true", "1", "yes"]
    ensures r.Value? && !r.v ==> ValidatorText(v) in ["false", "0", "no"]
  {
    match v
    case Missing => Absent
    case Null => Absent
    case Bool(b) => Value(b)
    case Num(n) => if n == 1 then Value(true) else if n == 0 then Value(false) else CastError
    case Str(s) =>
      if s == "true" || s == "1" || s == "yes" then Value(true)
      else if s == "false" || s == "0" || s == "no" then Value(false)
      else CastError
  }

  /** A timestamp given as a non-negative number; other date forms are not
      modelled and read as a cast error. */
  function CastTimestamp(v: Json): (r: Cast<nat>)
    ensures r.Absent? <==> v.Missing?
    ensures r.Value? ==> v == Num(r.v)
    ensures v.Num? && v.n >= 0 ==> r == Value(v.n)
  {
    match v
    case Missing => Absent
    case Num(n) => if n >= 0 then Value(n) else CastError
    case _ => CastError
  }

  /** An `_id` given in the body must be an ObjectId text. */
  function CastId(v: Json): (r: Cast<string>)
    ensures r.Absent? <==> v.Missing?
    ensures r.Value? ==> v == Str(r.v) && IsObjectIdHex(r.v)
    ensures v.Str? && IsObjectIdHex(v.s) ==> r == Value(v.s)
  {
    match v
    case Missing => Absent
    case Str(s) => if IsObjectIdHex(s) then Value(s) else CastError
    case _ => CastError
  }

  /** `new Notification({...req.body, userId})` followed by the schema
      validation `save()` runs first. The owner always comes from the
      session; `read` defaults to false and `timestamp` to `now`; a body
      `_id` is kept, otherwise `freshId` is the id Mongoose generates.
      `None` stands for the ValidationError that makes `save()` reject. */
  function Construct(body: NotificationBody, owner: string, now: nat, freshId: string): (r: Option<Notification>)
    ensures r.Some? ==> SchemaValid(r.value)
    ensures r.Some? ==> r.value.userId == ObjectId(owner)
    ensures r.Some? && CastBoolean(body.read).Absent? ==> !r.value.read
    ensures r.Some? && CastBoolean(body.read).Value? ==> r.value.read == CastBoolean(body.read).v
    ensures r.Some? && body.timestamp == Missing ==> r.value.timestamp == now
    ensures r.Some? && CastTimestamp(body.timestamp).Value? ==> r.value.timestamp == CastTimestamp(body.timestamp).v
    ensures r.Some? && body.id == Missing ==> r.value.id == freshId
    ensures r.Some? && CastId(body.id).Value? ==> r.value.id == CastId(body.id).v
    ensures r.Some? ==> !CastBoolean(body.read).CastError? && !CastTimestamp(body.timestamp).CastError? && !CastId(body.id).CastError?
    ensures r.Some? ==> CastString(body.title) == Value(r.value.title)
    ensures r.Some? ==> CastString(body.message) == Value(r.value.message)
    ensures r.Some? ==> CastString(body.category) == Value(r.value.category)
    ensures (CastString(body.title).Value? && CastString(body.title).v == "") ==> r.None?
    ensures (CastString(body.message).Value? && CastString(body.message).v == "") ==> r.None?
  {
    var title := CastString(body.title);
    var message := CastString(body.message);
    var category := CastString(body.category);
    var read := CastBoolean(body.read);
    var timestamp := CastTimestamp(body.timestamp);
    var id := CastId(body.id);
    if !title.Value? || !message.Value? || !category.Value?
       || read.CastError? || timestamp.CastError? || id.CastError?
    then None
    else
      var n := Notification(
        if id.Value? then id.v else freshId,
        ObjectId(owner),
        title.v,
        message.v,
        category.v,
        if read.Value? then read.v else false,
        if timestamp.Value? then timestamp.v else now);
      if SchemaValid(n) then Some(n) else None
  }

  /** A `userId` in the body never reaches the stored record. */
  lemma ConstructIgnoresBodyOwner(body: NotificationBody, forged: Json, owner: string, now: nat, freshId: string)
    ensures Construct(body.(userId := forged), owner, now, freshId) == Construct(body, owner, now, freshId)
  {
  }

  /** The change events the TypeScript server emits on its socket.io
      server, named by their event names. */
  datatype Event =
    | NewNotification(n: Notification)
    | UpdateNotification(n: Notification)
    | DeleteNotification(id: string)
}

=== FILE: reconciler.dfy ===
/** The client reconciler against the TypeScript server: a dashboard that
    fetched its list once and then applies every socket event it receives.

    The server emits every event to every socket, and the dashboard's
    listeners apply each one with no check of whose notification it is.
    `Apply` models that; `ApplyFor` is the same reducer with creates of
    other users' notifications dropped. With the filter, a client that
    fetched and then applied every event holds exactly its user's records
    after any history in which every cache delete succeeded. */
module Reconciler {
  import opened Common
  import opened Notifications
  import opened Store
  import opened Controller
  import NotificationsSlice
  import Dashboard
  import Coherence

  /** The viewer's list holds exactly the viewer's records in the store,
      each once. */
  ghost predicate InSync(store: seq<Notification>, view: seq<Notification>, v: string)
  {
    && IdsUnique(store)
    && IdsUnique(view)
    && forall x :: x in view <==> x in store && x.userId == Owner(v)
  }

  /** The dashboard's listeners as written: every event goes to the list
      reducer, whoever it concerns. */
  function Apply(view: seq<Notification>, e: Event): (r: seq<Notification>)
    ensures forall st: NotificationsSlice.State {:trigger NotificationsSlice.Reduce(st, Dashboard.ToAction(e))} ::
      st.items == view ==> NotificationsSlice.Reduce(st, Dashboard.ToAction(e)).items == r
  {
    match e
    case NewNotification(n) => NotificationsSlice.AddNew(view, n)
    case UpdateNotification(n) => NotificationsSlice.UpdateExisting(view, n)
    case DeleteNotification(id) => NotificationsSlice.Remove(view, id)
  }

  /** The listeners with a recipient check on creates. Updates and deletes
      need none: their ids belong to one user only. */
  function ApplyFor(view: seq<Notification>, v: string, e: Event): seq<Notification>
  {
    if e.NewNotification? && e.n.userId != Owner(v) then view else Apply(view, e)
  }

  /** With the recipient check a create never brings another user's record
      into the list, where the listeners as written take it in: another
      user's create changes nothing, the viewer's own is prepended, and
      updates and deletes are applied as the slice applies them. */
  lemma RecipientCheckKeepsOthersOut(view: seq<Notification>, v: string, e: Event)
    ensures e.NewNotification? ==>
      forall x :: x in ApplyFor(view, v, e) ==> x in view || x.userId == Owner(v)
    ensures e.NewNotification? && e.n.userId != Owner(v) ==>
      ApplyFor(view, v, e) == view && e.n in Apply(view, e)
    ensures e.NewNotification? && e.n.userId == Owner(v) ==> ApplyFor(view, v, e) == [e.n] + view
    ensures !e.NewNotification? ==> ApplyFor(view, v, e) == Apply(view, e)
  {
  }

  function ApplyAll(view: seq<Notification>, v: string, es: seq<Event>): seq<Notification>
    decreases |es|
  {
    if |es| == 0 then view else ApplyAll(ApplyFor(view, v, es[0]), v, es[1..])
  }

  lemma {:induction false} ApplyAllAppend(view: seq<Notification>, v: string, a: seq<Event>, b: seq<Event>)
    ensures ApplyAll(view, v, a + b) == ApplyAll(ApplyAll(view, v, a), v, b)
    decreases |a|
  {
    if |a| == 0 {
      assert a + b == b;
    } else {
      assert (a + b)[1..] == a[1..] + b;
      ApplyAllAppend(ApplyFor(view, v, a[0]), v, a[1..], b);
    }
  }

  /** With unique ids in the store, a record is determined by its id. */
  lemma SameIdSameRecord(store: seq<Notification>, x: Notification, y: Notification)
    requires IdsUnique(store) && x in store && y in store
    ensures x.id == y.id ==> x == y
  {
    var i :| 0 <= i < |store| && store[i] == x;
    var j :| 0 <= j < |store| && store[j] == y;
    assert store[i].id == store[j].id ==> i == j;
  }

  /** The initial fetch puts the client in sync. */
  lemma FetchEstablishesSync(store: seq<Notification>, v: string)
    requires IdsUnique(store)
    ensures InSync(store, Load(store, Owner(v)), v)
  {
  }

  /** So does any successful read on a coherent server, cached or not. */
  lemma ReadEstablishesSync(s: Server, v: string, f: Faults)
    requires IdsUnique(s.store) && Coherence.Coherent(s)
    requires Get(s, v, f).reply.status == 200
    ensures InSync(s.store, Get(s, v, f).reply.body.docs, v)
  {
    Coherence.ReadsServeStoreState(s, v, f);
  }

  lemma AddKeepsSync(s: Server, view: seq<Notification>, v: string, u: string, body: NotificationBody, freshId: string, f: Faults)
    requires InSync(s.store, view, v)
    requires Add(s, u, body, freshId, f).reply.status == 201
    ensures var o := Add(s, u, body, freshId, f);
      InSync(o.server.store, ApplyFor(view, v, o.server.emitted[|o.server.emitted| - 1]), v)
  {
    var o := Add(s, u, body, freshId, f);
    var n := Construct(body, u, s.clock, freshId).value;
    assert o.server.emitted[|o.server.emitted| - 1] == NewNotification(n);
    if u == v {
      forall y | y in view
        ensures y.id != n.id
      {
        var k :| 0 <= k < |s.store| && s.store[k] == y;
      }
      UniqueCons(n, view);
    } else {
      assert Owner(u) != Owner(v);
    }
  }

  lemma MarkKeepsSync(s: Server, view: seq<Notification>, v: string, u: string, id: string, read: bool, f: Faults)
    requires InSync(s.store, view, v)
    requires Mark(s, u, id, read, f).reply.status == 200
    ensures var o := Mark(s, u, id, read, f);
      InSync(o.server.store, ApplyFor(view, v, o.server.emitted[|o.server.emitted| - 1]), v)
  {
    var o := Mark(s, u, id, read, f);
    var i := FindOwned(s.store, id, Owner(u)).value;
    var n := s.store[i].(read := read);
    assert o.server.emitted[|o.server.emitted| - 1] == UpdateNotification(n);
    var view' := NotificationsSlice.UpdateExisting(view, n);
    ReplaceMembership(s.store, i, n);
    if u == v {
      assert s.store[i] in view;
      var j := NotificationsSlice.FirstIndexOf(view, n.id).value;
      SameIdSameRecord(s.store, view[j], s.store[i]);
      assert view' == view[j := n];
      ReplaceMembership(view, j, n);
    } else {
      forall x | x in view
        ensures x.id != n.id
      {
        SameIdSameRecord(s.store, x, s.store[i]);
      }
      NotificationsSlice.UpdateAbsentNoop(view, n);
      forall x | x in s.store && x.userId == Owner(v)
        ensures x.id != n.id
      {
        SameIdSameRecord(s.store, x, s.store[i]);
      }
    }
  }

  lemma DeleteKeepsSync(s: Server, view: seq<Notification>, v: string, u: string, id: string, f: Faults)
    requires InSync(s.store, view, v)
    requires Delete(s, u, id, f).reply.status == 200
    ensures var o := Delete(s, u, id, f);
      InSync(o.server.store, ApplyFor(view, v, o.server.emitted[|o.server.emitted| - 1]), v)
  {
    var o := Delete(s, u, id, f);
    var i := FindOwned(s.store, id, Owner(u)).value;
    assert o.server.emitted[|o.server.emitted| - 1] == Event.DeleteNotification(id);
    RemoveMembership(s.store, i);
    NotificationsSlice.RemoveKeepsIdsUnique(view, id);
  }

  /** The events a step emitted. */
  function NewEvents(before: Server, after: Server): seq<Event>
    requires |before.emitted| <= |after.emitted|
  {
    after.emitted[|before.emitted|..]
  }

  /** The events after `a` are those up to `m` followed by those after `m`. */
  lemma NewEventsSplit(a: Server, m: Server, t: Server)
    requires |a.emitted| <= |m.emitted| && m.emitted[..|a.emitted|] == a.emitted
    requires |m.emitted| <= |t.emitted| && t.emitted[..|m.emitted|] == m.emitted
    ensures |a.emitted| <= |t.emitted| && t.emitted[..|a.emitted|] == a.emitted
    ensures NewEvents(a, t) == NewEvents(a, m) + NewEvents(m, t)
  {
    assert t.emitted[..|a.emitted|] == t.emitted[..|m.emitted|][..|a.emitted|];
    assert t.emitted == t.emitted[..|m.emitted|] + NewEvents(m, t);
  }

  /** One request or clock step, with every cache delete succeeding,
      extends the event log and keeps a client that applies the new
      events in sync. */
  lemma StepKeepsSync(s: Server, op: Coherence.Op, view: seq<Notification>, v: string)
    requires InSync(s.store, view, v)
    requires op.TickOp? || !op.f.cacheDel
    ensures var t := Coherence.Step(s, op);
      && |s.emitted| <= |t.emitted| && t.emitted[..|s.emitted|] == s.emitted
      && InSync(t.store, ApplyAll(view, v, NewEvents(s, t)), v)
  {
    var t := Coherence.Step(s, op);
    match op {
      case GetOp(u, f) =>
        assert NewEvents(s, t) == [];
      case TickOp(dt) =>
        assert NewEvents(s, t) == [];
      case AddOp(u, body, freshId, f) => AddStepKeepsSync(s, view, v, u, body, freshId, f);
      case MarkOp(u, id, read, f) => MarkStepKeepsSync(s, view, v, u, id, read, f);
      case DeleteOp(u, id, f) => DeleteStepKeepsSync(s, view, v, u, id, f);
    }
  }

  lemma AddStepKeepsSync(s: Server, view: seq<Notification>, v: string, u: string, body: NotificationBody, freshId: string, f: Faults)
    requires InSync(s.store, view, v)
    requires !f.cacheDel
    ensures var t := Coherence.Step(s, Coherence.AddOp(u, body, freshId, f));
      && |s.emitted| <= |t.emitted| && t.emitted[..|s.emitted|] == s.emitted
      && InSync(t.store, ApplyAll(view, v, NewEvents(s, t)), v)
  {
    var t := Coherence.Step(s, Coherence.AddOp(u, body, freshId, f));
    assert t == Add(s, u, body, freshId, f).server;
    if Add(s, u, body, freshId, f).reply.status == 201 {
      AddKeepsSync(s, view, v, u, body, freshId, f);
      assert NewEvents(s, t) == [t.emitted[|t.emitted| - 1]];
    } else {
      assert t == s;
      assert NewEvents(s, t) == [];
    }
  }

  lemma MarkStepKeepsSync(s: Server, view: seq<Notification>, v: string, u: string, id: string, read: bool, f: Faults)
    requires InSync(s.store, view, v)
    requires !f.cacheDel
    ensures var t := Coherence.Step(s, Coherence.MarkOp(u, id, read, f));
      && |s.emitted| <= |t.emitted| && t.emitted[..|s.emitted|] == s.emitted
      && InSync(t.store, ApplyAll(view, v, NewEvents(s, t)), v)
  {
    var t := Coherence.Step(s, Coherence.MarkOp(u, id, read, f));
    assert t == Mark(s, u, id, read, f).server;
    if Mark(s, u, id, read, f).reply.status == 200 {
      MarkKeepsSync(s, view, v, u, id, read, f);
      assert NewEvents(s, t) == [t.emitted[|t.emitted| - 1]];
    } else {
      assert t == s;
      assert NewEvents(s, t) == [];
    }
  }

  lemma DeleteStepKeepsSync(s: Server, view: seq<Notification>, v: string, u: string, id: string, f: Faults)
    requires InSync(s.store, view, v)
    requires !f.cacheDel
    ensures var t := Coherence.Step(s, Coherence.DeleteOp(u, id, f));
      && |s.emitted| <= |t.emitted| && t.emitted[..|s.emitted|] == s.emitted
      && InSync(t.store, ApplyAll(view, v, NewEvents(s, t)), v)
  {
    var t := Coherence.Step(s, Coherence.DeleteOp(u, id, f));
    assert t == Delete(s, u, id, f).server;
    if Delete(s, u, id, f).reply.status == 200 {
      DeleteKeepsSync(s, view, v, u, id, f);
      assert NewEvents(s, t) == [t.emitted[|t.emitted| - 1]];
    } else {
      assert t == s;
      assert NewEvents(s, t) == [];
    }
  }

  lemma {:induction false} RunKeepsSync(s: Server, ops: seq<Coherence.Op>, view: seq<Notification>, v: string)
    requires InSync(s.store, view, v)
    requires Coherence.InvalidationsSucceed(ops)
    ensures var t := Coherence.Run(s, ops);
      && |s.emitted| <= |t.emitted| && t.emitted[..|s.emitted|] == s.emitted
      && InSync(t.store, ApplyAll(view, v, NewEvents(s, t)), v)
    decreases |ops|
  {
    if |ops| == 0 {
      assert NewEvents(s, s) == [];
    } else {
      var m := Coherence.Step(s, ops[0]);
      StepKeepsSync(s, ops[0], view, v);
      var view' := ApplyAll(view, v, NewEvents(s, m));
      Coherence.InvalidationsSucceedSplit(ops);
      RunKeepsSync(m, ops[1..], view', v);
      var t := Coherence.Run(m, ops[1..]);
      assert t == Coherence.Run(s, ops);
      NewEventsSplit(s, m, t);
      ApplyAllAppend(view, v, NewEvents(s, m), NewEvents(m, t));
      assert ApplyAll(view, v, NewEvents(s, t)) == ApplyAll(view', v, NewEvents(m, t));
    }
  }

  /** Convergence: a client that fetched from a fresh server and then
      applied, through the recipient check, every event emitted since
      holds exactly its user's current records, whatever requests of any
      users and clock steps happened, provided no cache delete threw. */
  lemma ClientConverges(store: seq<Notification>, clock: nat, ops: seq<Coherence.Op>, v: string)
    requires IdsUnique(store)
    requires Coherence.InvalidationsSucceed(ops)
    ensures var t := Coherence.Run(Server(store, map[], clock, []), ops);
      InSync(t.store, ApplyAll(Load(store, Owner(v)), v, t.emitted), v)
  {
    var s := Server(store, map[], clock, []);
    FetchEstablishesSync(store, v);
    RunKeepsSync(s, ops, Load(store, Owner(v)), v);
    assert NewEvents(s, Coherence.Run(s, ops)) == Coherence.Run(s, ops).emitted;
  }

  /** As written, the dashboard of user "v" lists a notification another
      user just created. */
  lemma AsWrittenShowsOtherUsersCreates()
    ensures var s := Server([], map[], 0, []);
            var body := NotificationBody(Missing, Str("A"), Str("m1"), Str("info"), Missing, Missing, Missing);
            var o := Add(s, "w", body, "id1", NoFaults);
            && InSync(s.store, [], "v")
            && o.reply.status == 201
            && |o.server.emitted| == 1
            && !InSync(o.server.store, Apply([], o.server.emitted[0]), "v")
            && InSync(o.server.store, ApplyFor([], "v", o.server.emitted[0]), "v")
  {
    var s := Server([], map[], 0, []);
    var body := NotificationBody(Missing, Str("A"), Str("m1"), Str("info"), Missing, Missing, Missing);
    var n := Notification("id1", ObjectId("w"), "A", "m1", "info", false, 0);
    assert "info" in Categories;
    assert Construct(body, "w", 0, "id1") == Some(n);
    var o := Add(s, "w", body, "id1", NoFaults);
    assert o.server.emitted == [NewNotification(n)];
    assert Apply([], NewNotification(n)) == [n];
    assert n.userId != Owner("v");
  }

  /** Creates are not idempotent: a create delivered twice lists the
      record twice, and the client is out of sync. */
  lemma DuplicateCreateBreaksSync(store: seq<Notification>, view: seq<Notification>, v: string, n: Notification)
    requires InSync(store, ApplyFor(view, v, NewNotification(n)), v)
    requires n.userId == Owner(v)
    ensures !InSync(store, ApplyFor(ApplyFor(view, v, NewNotification(n)), v, NewNotification(n)), v)
  {
    var once := ApplyFor(view, v, NewNotification(n));
    var twice := ApplyFor(once, v, NewNotification(n));
    assert twice == [n] + once;
    assert twice[0] == n && twice[1] == n;
  }

  /** A cache delete that throws after a successful store write leaves
      the client behind: the record exists, but no event announced it. */
  lemma FailedInvalidationDesyncsClient()
    ensures var s := Server([], map[], 0, []);
            var body := NotificationBody(Missing, Str("A"), Str("m1"), Str("info"), Missing, Missing, Missing);
            var o := Add(s, "v", body, "id1", Faults(false, false, false, true));
            && InSync(s.store, [], "v")
            && o.server.emitted == []
            && !InSync(o.server.store, [], "v")
  {
    var body := NotificationBody(Missing, Str("A"), Str("m1"), Str("info"), Missing, Missing, Missing);
    var n := Notification("id1", ObjectId("v"), "A", "m1", "info", false, 0);
    assert "info" in Categories;
    assert Construct(body, "v", 0, "id1") == Some(n);
    assert n in Add(Server([], map[], 0, []), "v", body, "id1", Faults(false, false, false, true)).server.store;
  }
}

=== FILE: routes.dfy ===
/** The TypeScript notification routes: authentication first for every
    route, then the per-route field checks, then the controller. A request
    that fails a check is answered 400 by the validation middleware (which
    is not part of this model) and never reaches the controller. */
module Routes {
  import opened Common
  import opened Notifications
  import opened Validators
  import Store
  import Controller

  predicate PostValid(b: NotificationBody)
  {
    && NotEmpty(b.title)
    && NotEmpty(b.message)
    && IsIn(b.category, Categories)
  }

  predicate PatchValid(id: string, read: Json)
  {
    IsMongoId(id) && IsBoolean(read)
  }

  predicate DeleteValid(id: string)
  {
    IsMongoId(id)
  }

  datatype Request =
    | GetRequest
    | PostRequest(body: NotificationBody, freshId: string)
    | PatchRequest(id: string, read: Json)
    | DeleteRequest(id: string)

  predicate Admissible(req: Request)
  {
    match req
    case GetRequest => true
    case PostRequest(body, _) => PostValid(body)
    case PatchRequest(id, read) => PatchValid(id, read)
    case DeleteRequest(id) => DeleteValid(id)
  }

  /** The route check and the schema agree on title and message: the
      validator accepts exactly the values the schema stores as non-empty
      text. */
  lemma NotEmptyMatchesSchema(v: Json)
    ensures NotEmpty(v) <==> CastString(v).Value? && CastString(v).v != ""
  {
    if v.Num? {
      DecimalStringStart(v.n);
    }
  }

  /** ... and on the category: the validator accepts exactly the values
      the schema casts into the enum. */
  lemma CategoryCheckMatchesSchema(v: Json)
    ensures IsIn(v, Categories) <==> CastString(v).Value? && ValidCategory(CastString(v).v)
  {
    if v.Num? {
      DecimalStringStart(v.n);
      var t := DecimalString(v.n);
      assert t != "info" && t != "alert" && t != "message" by {
        assert "info"[0] == 'i' && "alert"[0] == 'a' && "message"[0] == 'm';
      }
    }
  }

  /** The fields of a create body that no route check looks at cast
      without error. */
  predicate OptionalFieldsCast(body: NotificationBody)
  {
    && !CastId(body.id).CastError?
    && !CastBoolean(body.read).CastError?
    && !CastTimestamp(body.timestamp).CastError?
  }

  /** Every body the schema stores passed the route checks; a body that
      passes them is stored exactly when its unchecked `_id`, `read` and
      `timestamp` fields cast, so `read: "maybe"` passes the route and is
      then refused by the schema. */
  lemma PostValidIffSchemaAccepts(body: NotificationBody, owner: string, now: nat, freshId: string)
    ensures Construct(body, owner, now, freshId).Some? ==> PostValid(body)
    ensures PostValid(body) ==> (Construct(body, owner, now, freshId).Some? <==> OptionalFieldsCast(body))
    ensures OptionalFieldsCast(body) ==> (PostValid(body) <==> Construct(body, owner, now, freshId).Some?)
  {
    NotEmptyMatchesSchema(body.title);
    NotEmptyMatchesSchema(body.message);
    CategoryCheckMatchesSchema(body.category);
  }

  /** The path-id check accepts exactly the texts the `_id` cast keeps. */
  lemma MongoIdMatchesCast(s: string)
    ensures IsMongoId(s) <==> CastId(Str(s)).Value?
    ensures IsMongoId(s) ==> CastId(Str(s)).v == s
  {
  }

  /** Every `read` value the PATCH check accepts casts to a boolean, so the
      controller's update never fails on the cast. */
  lemma PatchReadCasts(read: Json)
    requires IsBoolean(read)
    ensures CastBoolean(read).Value?
    ensures CastBoolean(read).v <==> ValidatorText(read) in ["true", "1"]
  {
    if read.Num? {
      var t := DecimalString(read.n);
      assert |t| == 1 by {
        assert t == "1" || t == "0" || t == "true" || t == "false";
        DecimalStringStart(read.n);
        assert t[0] != 't' && t[0] != 'f';
      }
      SingleDigitText(read.n);
    }
  }

  /** One request on the notification router. */
  function Handle(s: Controller.Server, session: Option<string>, req: Request, f: Controller.Faults): (o: Controller.Outcome)
    ensures session.None? ==> o.reply.status == 401 && o.server == s && o.calls == []
    ensures session.Some? && !Admissible(req) ==> o.reply.status == 400 && o.server == s && o.calls == []
    ensures o.reply.status !in {400, 401} ==> session.Some? && Admissible(req)
    ensures session.Some? && req.GetRequest? ==> o == Controller.Get(s, session.value, f)
    ensures session.Some? && req.PostRequest? && Admissible(req) ==>
      o == Controller.Add(s, session.value, req.body, req.freshId, f)
    ensures session.Some? && req.PatchRequest? && Admissible(req) ==>
      CastBoolean(req.read).Value? && o == Controller.Mark(s, session.value, req.id, CastBoolean(req.read).v, f)
    ensures session.Some? && req.DeleteRequest? && Admissible(req) ==>
      o == Controller.Delete(s, session.value, req.id, f)
  {
    match session
    case None => Controller.Outcome(s, Controller.Reply(401, Controller.Note("Unauthorized")), [])
    case Some(u) =>
      if !Admissible(req) then
        Controller.Outcome(s, Controller.Reply(400, Controller.Note("Validation failed")), [])
      else
        match req
        case GetRequest => Controller.Get(s, u, f)
        case PostRequest(body, freshId) => Controller.Add(s, u, body, freshId, f)
        case PatchRequest(id, read) =>
          PatchReadCasts(read);
          Controller.Mark(s, u, id, CastBoolean(read).v, f)
        case DeleteRequest(id) => Controller.Delete(s, u, id, f)
  }

  /** A create request that passes the route checks and sends no `_id`,
      `read` or `timestamp` is stored unless a store or cache call throws
      or the generated id is taken. */
  lemma ValidCreateIsStored(s: Controller.Server, u: string, body: NotificationBody, freshId: string)
    requires PostValid(body)
    requires body.id == Missing && body.read == Missing && body.timestamp == Missing
    requires !Store.HasId(s.store, freshId)
    ensures Handle(s, Some(u), PostRequest(body, freshId), Controller.NoFaults).reply.status == 201
  {
    PostValidIffSchemaAccepts(body, u, s.clock, freshId);
  }
}

=== FILE: slice.dfy ===
/** The client's notifications slice: the list the dashboard renders, a
    fetch-status tag and the last fetch error. The three plain reducers
    apply pushed change events; the extra reducers follow the thunks. */
module NotificationsSlice {
  import opened Common
  import opened Notifications
  import opened Actions
  import Store

  datatype State = State(items: seq<Notification>, status: Status, error: Option<string>)

  const Initial: State := State([], Idle, None)

  /** `addNewNotification` and `addNotification.fulfilled`: `unshift`. */
  function AddNew(items: seq<Notification>, n: Notification): (r: seq<Notification>)
    ensures |r| == |items| + 1
    ensures r[0] == n && r[1..] == items
  {
    [n] + items
  }

  /** `findIndex` by id; `None` stands for -1. */
  function FirstIndexOf(items: seq<Notification>, id: string): (r: Option<nat>)
    ensures r.Some? ==> r.value < |items| && items[r.value].id == id
    ensures r.Some? ==> forall j :: 0 <= j < r.value ==> items[j].id != id
    ensures r.None? ==> forall j :: 0 <= j < |items| ==> items[j].id != id
  {
    if |items| == 0 then None
    else if items[0].id == id then Some(0)
    else
      match FirstIndexOf(items[1..], id)
      case None => None
      case Some(k) => Some(k + 1)
  }

  /** `updateExistingNotification` and `markNotification.fulfilled`: the
      first item with the payload's id is replaced; nothing else moves. */
  function UpdateExisting(items: seq<Notification>, n: Notification): (r: seq<Notification>)
    ensures |r| == |items|
    ensures (forall j :: 0 <= j < |items| ==> items[j].id != n.id) ==> r == items
    ensures forall i :: 0 <= i < |items| && items[i].id == n.id && (forall j :: 0 <= j < i ==> items[j].id != n.id) ==>
      r[i] == n && forall k :: 0 <= k < |items| && k != i ==> r[k] == items[k]
  {
    match FirstIndexOf(items, n.id)
    case None => items
    case Some(i) =>
      assert forall i' :: 0 <= i' < |items| && items[i'].id == n.id && (forall j :: 0 <= j < i' ==> items[j].id != n.id) ==> i' == i;
      items[i := n]
  }

  /** `removeNotification` and `deleteNotification.fulfilled`: `filter` on
      the id. */
  function Remove(items: seq<Notification>, id: string): (r: seq<Notification>)
    ensures |r| <= |items|
    ensures forall x :: x in r <==> x in items && x.id != id
  {
    if |items| == 0 then []
    else if items[0].id == id then Remove(items[1..], id)
    else [items[0]] + Remove(items[1..], id)
  }

  /** Remove works item by item, so it keeps the surviving items in their
      original order: on a concatenation it is the concatenation of the
      two filtered halves. */
  lemma {:induction false} RemoveDistributes(a: seq<Notification>, b: seq<Notification>, id: string)
    ensures Remove(a + b, id) == Remove(a, id) + Remove(b, id)
  {
    if |a| == 0 {
      assert a + b == b;
    } else {
      assert (a + b)[1..] == a[1..] + b;
      RemoveDistributes(a[1..], b, id);
    }
  }

  /** Remove of an id no item carries leaves the list as it is. */
  lemma {:induction false} RemoveAbsentNoop(items: seq<Notification>, id: string)
    requires forall j :: 0 <= j < |items| ==> items[j].id != id
    ensures Remove(items, id) == items
  {
    if |items| > 0 {
      RemoveAbsentNoop(items[1..], id);
      assert items == [items[0]] + items[1..];
    }
  }

  lemma RemoveIdempotent(items: seq<Notification>, id: string)
    ensures Remove(Remove(items, id), id) == Remove(items, id)
  {
    var r := Remove(items, id);
    assert forall j :: 0 <= j < |r| ==> r[j] in r;
    RemoveAbsentNoop(r, id);
  }

  lemma {:induction false} RemoveKeepsIdsUnique(items: seq<Notification>, id: string)
    requires Store.IdsUnique(items)
    ensures Store.IdsUnique(Remove(items, id))
  {
    if |items| > 0 {
      var rest := items[1..];
      assert Store.IdsUnique(rest) by {
        forall i, j | 0 <= i < j < |rest|
          ensures rest[i].id != rest[j].id
        {
          assert rest[i] == items[i + 1] && rest[j] == items[j + 1];
        }
      }
      RemoveKeepsIdsUnique(rest, id);
      if items[0].id != id {
        var r := Remove(rest, id);
        forall k | 0 <= k < |r|
          ensures r[k].id != items[0].id
        {
          assert r[k] in rest;
          var m :| 0 <= m < |rest| && rest[m] == r[k];
          assert items[m + 1] == r[k];
        }
      }
    }
  }

  /** Update of an id no item carries leaves the list as it is. */
  lemma UpdateAbsentNoop(items: seq<Notification>, n: Notification)
    requires forall x :: x in items ==> x.id != n.id
    ensures UpdateExisting(items, n) == items
  {
    assert forall j :: 0 <= j < |items| ==> items[j] in items;
  }

  lemma UpdateIdempotent(items: seq<Notification>, n: Notification)
    ensures UpdateExisting(UpdateExisting(items, n), n) == UpdateExisting(items, n)
  {
    var r := UpdateExisting(items, n);
    match FirstIndexOf(items, n.id)
    case None =>
    case Some(i) =>
      assert r == items[i := n];
      assert FirstIndexOf(r, n.id) == Some(i) by {
        var k := FirstIndexOf(r, n.id);
        assert r[i].id == n.id;
        assert k.Some?;
        assert forall j :: 0 <= j < i ==> r[j] == items[j];
      }
  }

  /** Add never checks for the id: adding a notification that is already
      listed lists it twice. */
  lemma AddDoesNotDeduplicate(items: seq<Notification>, n: Notification)
    requires n in items
    ensures multiset(AddNew(items, n))[n] == multiset(items)[n] + 1
    ensures multiset(AddNew(items, n))[n] >= 2
  {
    assert AddNew(items, n) == [n] + items;
  }

  /** Create, then update, then delete of the same id leaves no trace of
      that id, however many copies the create added. */
  lemma AddUpdateRemoveClears(items: seq<Notification>, n: Notification, m: Notification)
    requires m.id == n.id
    ensures forall x :: x in Remove(UpdateExisting(AddNew(items, n), m), n.id) ==> x.id != n.id
    ensures forall x :: x in items && x.id != n.id ==> x in Remove(UpdateExisting(AddNew(items, n), m), n.id)
  {
    var a := AddNew(items, n);
    var u := UpdateExisting(a, m);
    assert a[0].id == m.id;
    forall x | x in items && x.id != n.id
      ensures x in u
    {
      var k :| 0 <= k < |items| && items[k] == x;
      assert a[k + 1] == x;
      assert u[k + 1] == x;
    }
  }

  /** `action.error.message || null`. */
  function MessageOrNull(m: Option<string>): (r: Option<string>)
    ensures r.Some? <==> m.Some? && m.value != ""
    ensures r.Some? ==> r == m
  {
    if m.Some? && m.value != "" then m else None
  }

  /** The slice's reducer on any action. */
  function Reduce(st: State, a: Action): (r: State)
    ensures a.Pending? && a.thunk == FetchNotifications ==>
      r.status == Loading && r.items == st.items && r.error == st.error
    ensures a.FetchFulfilled? ==>
      r.status == Succeeded && r.items == a.items && r.error == st.error
    ensures a.Rejected? && a.thunk == FetchNotifications ==>
      r.status == Failed && r.items == st.items && r.error == MessageOrNull(a.message)
    ensures !(a.Pending? && a.thunk == FetchNotifications) && !a.FetchFulfilled? && !(a.Rejected? && a.thunk == FetchNotifications) ==>
      r.status == st.status && r.error == st.error
    ensures a.Other? || a.Pending? || a.Rejected? || a.RegisterFulfilled? || a.LoginFulfilled? || a.LogoutFulfilled? ==>
      r.items == st.items
  {
    match a
    case AddNewNotification(n) => st.(items := AddNew(st.items, n))
    case UpdateExistingNotification(n) => st.(items := UpdateExisting(st.items, n))
    case RemoveNotification(id) => st.(items := Remove(st.items, id))
    case Pending(t) => if t == FetchNotifications then st.(status := Loading) else st
    case FetchFulfilled(items) => st.(status := Succeeded, items := items)
    case Rejected(t, m) => if t == FetchNotifications then st.(status := Failed, error := MessageOrNull(m)) else st
    case AddFulfilled(n) => st.(items := AddNew(st.items, n))
    case MarkFulfilled(n) => st.(items := UpdateExisting(st.items, n))
    case DeleteFulfilled(id) => st.(items := Remove(st.items, id))
    case _ => st
  }

  /** The thunk results for add, mark and delete act exactly like the
      plain reducers the socket events dispatch. */
  lemma FulfilledCasesMatchReducers(st: State, n: Notification, id: string)
    ensures Reduce(st, AddFulfilled(n)) == Reduce(st, AddNewNotification(n))
    ensures Reduce(st, MarkFulfilled(n)) == Reduce(st, UpdateExistingNotification(n))
    ensures Reduce(st, DeleteFulfilled(id)) == Reduce(st, RemoveNotification(id))
    ensures Reduce(st, AddFulfilled(n)).items == AddNew(st.items, n)
    ensures Reduce(st, MarkFulfilled(n)).items == UpdateExisting(st.items, n)
    ensures Reduce(st, DeleteFulfilled(id)).items == Remove(st.items, id)
  {
  }

  /** A fetch that fails and is then retried successfully still shows the
      old error: neither pending nor fulfilled clears it. */
  lemma StaleErrorSurvivesRefetch(st: State, m: string, items: seq<Notification>)
    requires m != ""
    ensures var r := Reduce(Reduce(Reduce(st, Rejected(FetchNotifications, Some(m))), Pending(FetchNotifications)), FetchFulfilled(items));
            r.status == Succeeded && r.items == items && r.error == Some(m)
  {
  }
}

=== FILE: store.dfy ===
/** The notifications collection as the handlers see it: a sequence of
    records in insertion order with unique ids, the owner query
    `find({userId}).sort({timestamp: -1})`, and the single-record lookups
    behind `findOneAndUpdate`, `findOneAndDelete` and `DeleteOne`. */
module Store {
  import opened Common
  import opened Notifications

  predicate IdsUnique(s: seq<Notification>)
  {
    forall i, j :: 0 <= i < j < |s| ==> s[i].id != s[j].id
  }

  predicate HasId(s: seq<Notification>, id: string)
  {
    exists i :: 0 <= i < |s| && s[i].id == id
  }

  /** The tail of a sequence with unique ids has unique ids, none of them
      the head's. */
  lemma UniqueTail(s: seq<Notification>)
    requires IdsUnique(s) && |s| > 0
    ensures IdsUnique(s[1..])
    ensures forall y :: y in s[1..] ==> y.id != s[0].id
  {
    forall y | y in s[1..]
      ensures y.id != s[0].id
    {
      var k :| 0 <= k < |s[1..]| && s[1..][k] == y;
      assert s[k + 1] == y;
    }
  }

  lemma UniqueCons(x: Notification, t: seq<Notification>)
    requires IdsUnique(t)
    requires forall y :: y in t ==> y.id != x.id
    ensures IdsUnique([x] + t)
  {
    var r := [x] + t;
    forall i, j | 0 <= i < j < |r|
      ensures r[i].id != r[j].id
    {
      assert r[j] == t[j - 1];
      if i > 0 { assert r[i] == t[i - 1]; } else { assert r[j] in t; }
    }
  }

  /** Appending a record whose id is not yet present keeps ids unique. */
  lemma UniqueSnoc(t: seq<Notification>, x: Notification)
    requires IdsUnique(t) && !HasId(t, x.id)
    ensures IdsUnique(t + [x])
  {
    var r := t + [x];
    forall i, j | 0 <= i < j < |r|
      ensures r[i].id != r[j].id
    {
      assert r[i] == t[i];
      if j < |t| { assert r[j] == t[j]; }
    }
  }

  /** The records whose `userId` field equals `owner`, in store order. */
  function OwnedBy(s: seq<Notification>, owner: UserRef): (r: seq<Notification>)
    ensures |r| <= |s|
    ensures forall x :: x in r <==> x in s && x.userId == owner
    ensures forall x :: x in r ==> x.userId == owner
    ensures IdsUnique(s) ==> IdsUnique(r)
  {
    if |s| == 0 then []
    else
      var rest := OwnedBy(s[1..], owner);
      if s[0].userId == owner then
        if IdsUnique(s) then UniqueTail(s); UniqueCons(s[0], rest); [s[0]] + rest
        else [s[0]] + rest
      else
        if IdsUnique(s) then UniqueTail(s); rest else rest
  }

  lemma {:induction false} OwnedByAppend(a: seq<Notification>, b: seq<Notification>, owner: UserRef)
    ensures OwnedBy(a + b, owner) == OwnedBy(a, owner) + OwnedBy(b, owner)
  {
    if |a| == 0 {
      assert a + b == b;
    } else {
      assert (a + b)[1..] == a[1..] + b;
      OwnedByAppend(a[1..], b, owner);
    }
  }

  /** Replacing a record by one with the same owner only changes that
      owner's query; every other owner sees the same sequence. */
  lemma OwnedByReplaceOther(s: seq<Notification>, i: nat, n: Notification, owner: UserRef)
    requires i < |s|
    requires s[i].userId != owner && n.userId != owner
    ensures OwnedBy(s[i := n], owner) == OwnedBy(s, owner)
  {
    var a, b := s[..i], s[i+1..];
    assert s == (a + [s[i]]) + b;
    assert s[i := n] == (a + [n]) + b;
    assert OwnedBy([s[i]], owner) == [];
    assert OwnedBy([n], owner) == [];
    OwnedByAppend(a + [s[i]], b, owner);
    OwnedByAppend(a, [s[i]], owner);
    OwnedByAppend(a + [n], b, owner);
    OwnedByAppend(a, [n], owner);
  }

  /** Removing another owner's record leaves an owner's query unchanged. */
  lemma OwnedByRemoveOther(s: seq<Notification>, i: nat, owner: UserRef)
    requires i < |s|
    requires s[i].userId != owner
    ensures OwnedBy(s[..i] + s[i+1..], owner) == OwnedBy(s, owner)
  {
    var a, b := s[..i], s[i+1..];
    assert s == (a + [s[i]]) + b;
    assert OwnedBy([s[i]], owner) == [];
    OwnedByAppend(a + [s[i]], b, owner);
    OwnedByAppend(a, [s[i]], owner);
    assert OwnedBy(a + [s[i]], owner) == OwnedBy(a, owner);
    OwnedByAppend(a, b, owner);
  }

  predicate SortedNewestFirst(s: seq<Notification>)
  {
    forall i, j :: 0 <= i < j < |s| ==> s[i].timestamp >= s[j].timestamp
  }

  function InsertByTimestamp(x: Notification, s: seq<Notification>): (r: seq<Notification>)
    requires SortedNewestFirst(s)
    ensures SortedNewestFirst(r)
    ensures multiset(r) == multiset(s) + multiset{x}
    ensures forall y :: y in r <==> y == x || y in s
    ensures |r| == |s| + 1
    ensures IdsUnique(s) && (forall y :: y in s ==> y.id != x.id) ==> IdsUnique(r)
  {
    if |s| == 0 || x.timestamp >= s[0].timestamp then
      if IdsUnique(s) && (forall y :: y in s ==> y.id != x.id) then UniqueCons(x, s); [x] + s
      else [x] + s
    else
      var rest := InsertByTimestamp(x, s[1..]);
      InsertStep(x, s, rest);
      [s[0]] + rest
  }

  /** The recursive case of `InsertByTimestamp`: putting the head back in
      front of the tail's insertion keeps the order, the contents and the
      uniqueness of ids. */
  lemma InsertStep(x: Notification, s: seq<Notification>, rest: seq<Notification>)
    requires SortedNewestFirst(s) && |s| > 0 && x.timestamp < s[0].timestamp
    requires SortedNewestFirst(rest)
    requires multiset(rest) == multiset(s[1..]) + multiset{x}
    requires forall y :: y in rest <==> y == x || y in s[1..]
    requires IdsUnique(s[1..]) && (forall y :: y in s[1..] ==> y.id != x.id) ==> IdsUnique(rest)
    ensures SortedNewestFirst([s[0]] + rest)
    ensures multiset([s[0]] + rest) == multiset(s) + multiset{x}
    ensures forall y :: y in [s[0]] + rest <==> y == x || y in s
    ensures IdsUnique(s) && (forall y :: y in s ==> y.id != x.id) ==> IdsUnique([s[0]] + rest)
  {
    assert s == [s[0]] + s[1..];
    var r := [s[0]] + rest;
    forall k | 0 <= k < |rest|
      ensures rest[k].timestamp <= s[0].timestamp
    {
      assert rest[k] in rest;
      if rest[k] != x {
        var m :| 0 <= m < |s[1..]| && s[1..][m] == rest[k];
        assert s[m + 1] == rest[k];
      }
    }
    forall i, j | 0 <= i < j < |r|
      ensures r[i].timestamp >= r[j].timestamp
    {
      assert r[j] == rest[j - 1];
      if i > 0 { assert r[i] == rest[i - 1]; }
    }
    if IdsUnique(s) && (forall y :: y in s ==> y.id != x.id) {
      UniqueTail(s);
      UniqueCons(s[0], rest);
    }
  }

  /** `.sort({timestamp: -1})`: newest first, holding exactly the records it
      was given. */
  function SortNewestFirst(s: seq<Notification>): (r: seq<Notification>)
    ensures SortedNewestFirst(r)
    ensures multiset(r) == multiset(s)
    ensures forall y :: y in r <==> y in s
    ensures |r| == |s|
    ensures IdsUnique(s) ==> IdsUnique(r)
  {
    if |s| == 0 then []
    else
      assert s == [s[0]] + s[1..];
      var rest := SortNewestFirst(s[1..]);
      if IdsUnique(s) then
        UniqueTail(s);
        InsertByTimestamp(s[0], rest)
      else InsertByTimestamp(s[0], rest)
  }

  /** `find({userId: owner}).sort({timestamp: -1})`. */
  function Load(s: seq<Notification>, owner: UserRef): (r: seq<Notification>)
    ensures SortedNewestFirst(r)
    ensures multiset(r) == multiset(OwnedBy(s, owner))
    ensures forall x :: x in r <==> x in s && x.userId == owner
    ensures IdsUnique(s) ==> IdsUnique(r)
  {
    SortNewestFirst(OwnedBy(s, owner))
  }

  /** Index of the first record matching both id and owner: the record a
      `findOneAnd...({_id, userId})` or `DeleteOne` acts on. */
  function FindOwned(s: seq<Notification>, id: string, owner: UserRef): (r: Option<nat>)
    ensures r.Some? ==> r.value < |s| && s[r.value].id == id && s[r.value].userId == owner
    ensures r.Some? ==> forall j :: 0 <= j < r.value ==> !(s[j].id == id && s[j].userId == owner)
    ensures r.None? ==> forall j :: 0 <= j < |s| ==> !(s[j].id == id && s[j].userId == owner)
  {
    if |s| == 0 then None
    else if s[0].id == id && s[0].userId == owner then Some(0)
    else
      match FindOwned(s[1..], id, owner)
      case None => None
      case Some(k) => Some(k + 1)
  }

  /** With unique ids, replacing record `i` by a record with the same id
      swaps exactly that record. */
  lemma ReplaceMembership(s: seq<Notification>, i: nat, n: Notification)
    requires IdsUnique(s) && i < |s| && s[i].id == n.id
    ensures IdsUnique(s[i := n])
    ensures forall x :: x in s[i := n] <==> x == n || (x in s && x.id != n.id)
  {
    var t := s[i := n];
    assert t[i] == n;
    forall x
      ensures x in t <==> x == n || (x in s && x.id != n.id)
    {
      if x in s && x.id != n.id {
        var k :| 0 <= k < |s| && s[k] == x;
        assert k != i;
        assert t[k] == x;
      }
      if x in t && x != n {
        var k :| 0 <= k < |t| && t[k] == x;
        assert k != i;
        assert s[k] == x;
        if k < i { assert s[k].id != s[i].id; } else { assert s[i].id != s[k].id; }
      }
    }
  }

  /** With unique ids, dropping record `i` drops exactly the records that
      carry its id. */
  lemma RemoveMembership(s: seq<Notification>, i: nat)
    requires IdsUnique(s) && i < |s|
    ensures IdsUnique(s[..i] + s[i+1..])
    ensures forall x :: x in s[..i] + s[i+1..] <==> x in s && x.id != s[i].id
  {
    var t := s[..i] + s[i+1..];
    assert forall k :: 0 <= k < |t| ==> t[k] == (if k < i then s[k] else s[k + 1]);
    forall x
      ensures x in t <==> x in s && x.id != s[i].id
    {
      if x in s && x.id != s[i].id {
        var k :| 0 <= k < |s| && s[k] == x;
        assert k != i;
        if k < i { assert t[k] == x; } else { assert t[k - 1] == x; }
      }
    }
  }

  /** Two records of one owner, the second created later, come back from
      the owner query newer first, whatever else the collection holds
      before them. */
  lemma LaterCreateReadFirst(s: seq<Notification>, a: Notification, b: Notification)
    requires a.userId == b.userId
    requires a.timestamp < b.timestamp
    requires forall x :: x in s ==> x.userId != a.userId
    ensures Load(s + [a, b], a.userId) == [b, a]
  {
    var o := a.userId;
    OwnedByAppend(s, [a, b], o);
    NoneOwned(s, o);
    OwnedPair(a, b);
    assert OwnedBy(s + [a, b], o) == [a, b];
    SortTwo(a, b);
  }

  lemma OwnedPair(a: Notification, b: Notification)
    requires a.userId == b.userId
    ensures OwnedBy([a, b], a.userId) == [a, b]
  {
    assert [a, b][1..] == [b];
    assert [b][1..] == [];
  }

  lemma {:induction false} NoneOwned(s: seq<Notification>, o: UserRef)
    requires forall x :: x in s ==> x.userId != o
    ensures OwnedBy(s, o) == []
  {
    if |s| > 0 {
      assert s[0] in s;
      assert forall x :: x in s[1..] ==> x in s;
      NoneOwned(s[1..], o);
    }
  }

  lemma SortTwo(a: Notification, b: Notification)
    requires a.timestamp < b.timestamp
    ensures SortNewestFirst([a, b]) == [b, a]
  {
    assert [a, b][1..] == [b];
    assert [b][1..] == [];
    assert SortNewestFirst([b]) == InsertByTimestamp(b, []) == [b];
    assert InsertByTimestamp(a, [b]) == [b] + InsertByTimestamp(a, []);
  }
}

=== FILE: validators.dfy ===
/** The request-field checks the routes chain before a controller runs.
    Each one reads the field through `ValidatorText`, the string form the
    validator library works on. */
module Validators {
  import opened Common

  /** `.notEmpty()`: only an absent field, `null` and the empty string
      fail; every number and boolean passes. */
  predicate NotEmpty(v: Json)
    ensures NotEmpty(v) <==> !(v.Missing? || v.Null? || (v.Str? && v.s == ""))
  {
    ValidatorText(v) != ""
  }

  /** `.isIn(allowed)`: a string passes when it is listed; an absent field
      or `null` passes only when the empty string is listed. */
  predicate IsIn(v: Json, allowed: seq<string>)
    ensures v.Str? ==> (IsIn(v, allowed) <==> v.s in allowed)
    ensures v.Missing? || v.Null? ==> (IsIn(v, allowed) <==> "" in allowed)
  {
    ValidatorText(v) in allowed
  }

  /** `.isBoolean()`, in its strict form: the texts "true", "false", "1"
      and "0". Booleans always pass, an absent field or `null` never. */
  predicate IsBoolean(v: Json)
    ensures v.Bool? ==> IsBoolean(v)
    ensures v.Missing? || v.Null? ==> !IsBoolean(v)
    ensures v.Str? ==> (IsBoolean(v) <==> v.s in ["true", "false", "1", "0"])
  {
    ValidatorText(v) in ["true", "false", "1", "0"]
  }

  /** The length `isLength` measures: the number of code points, not
      counting the variation selectors U+FE0E and U+FE0F. */
  function VisibleLength(s: string): (n: nat)
    ensures n <= |s|
    ensures (forall i :: 0 <= i < |s| ==> !IsVariationSelector(s[i])) ==> n == |s|
    ensures |s| > 0 && IsVariationSelector(s[|s| - 1]) ==> n < |s|
  {
    if |s| == 0 then 0
    else VisibleLength(s[..|s| - 1]) + (if IsVariationSelector(s[|s| - 1]) then 0 else 1)
  }

  predicate IsVariationSelector(c: char)
  {
    c == '\U{FE0E}' || c == '\U{FE0F}'
  }

  /** `.isLength({ min })`: a plain text passes exactly when it has at
      least `min` characters; an absent field passes only for `min` 0. */
  predicate MinLength(v: Json, min: nat)
    ensures MinLength(v, min) ==> |ValidatorText(v)| >= min
    ensures v.Str? && (forall i :: 0 <= i < |v.s| ==> !IsVariationSelector(v.s[i])) ==>
      (MinLength(v, min) <==> |v.s| >= min)
    ensures v.Missing? || v.Null? ==> (MinLength(v, min) <==> min == 0)
  {
    VisibleLength(ValidatorText(v)) >= min
  }

  /** `.isMongoId()` on a path parameter: 24 hexadecimal digits. */
  predicate IsMongoId(s: string)
    ensures IsMongoId(s) ==> |s| == 24
    ensures IsMongoId(s) ==> forall i :: 0 <= i < |s| ==> IsHexDigit(s[i])
    ensures |s| == 24 && (forall i :: 0 <= i < |s| ==> IsHexDigit(s[i])) ==> IsMongoId(s)
  {
    IsObjectIdHex(s)
  }

  /** A number's text always starts with a digit or a minus sign. */
  lemma DecimalStringStart(n: int)
    ensures |DecimalString(n)| >= 1
    ensures DecimalString(n)[0] == '-' || '0' <= DecimalString(n)[0] <= '9'
  {
  }

  /** The only numbers whose text is a single digit are 0 to 9. */
  lemma SingleDigitText(n: int)
    requires |DecimalString(n)| == 1
    ensures 0 <= n < 10 && DecimalString(n) == [(('0' as int) + n) as char]
  {
  }
}
